=== FILE: README.md ===
# crypto_bot direction classifier: a Dafny model

This project models the deterministic data shaping of crypto_bot, a Django and
Celery service. The service stores daily coin prices and news sentiment, trains
a gradient-boosting classifier that predicts whether a coin goes UP or DOWN
tomorrow, stores one direction prediction per coin and day, and serves
the predictions as JSON.
The model covers:

- **History** (`history.dfy`): the storing half of `collect_historical_prices`.
  It covers the day of each market-chart point, the percent change from the
  previous point, and the upsert into the daily-stat table keyed by
  (coin, date).
- **News, PriceWindow, Features** (`news.dfy`, `price_window.dfy`,
  `features.dfy`): the per-window news summary (article count, scored
  articles, mean sentiment, positive and negative counts) and the price-window
  statistics. They also cover the twelve-field feature vector (deltas, spike
  and divergence flags, alignment) and column selection by name.
- **Dataset** (`dataset.dfy`): `prepare_classification_dataset`. For every coin
  with at least eight stats, an anchor slides over indices 7 .. len-2 with a
  seven-row price window, two news windows, a 0.5 % noise filter and a 0/1
  label. The first division by a zero price aborts the task, and so does an
  empty data list. The task reports the sample, UP and DOWN counts.
- **Training** (`training.dfy`): the classifier's six feature columns, the
  price/news grouping of feature importances, and the causal split: sort by
  date, then the first `int(0.8 n)` rows train and the rest test.
- **LiveFeatures** (`live_features.dfy`): `compute_features_for_coin`. It uses
  the newest seven stats of the last seven days (newest first, with the
  mirrored trend formula) and the timestamp-based news windows.
- **Prediction** (`prediction.dfy`): `generate_daily_predictions_classifier`.
  It covers the post-processing of a classifier output (confidence, estimated
  change and price) and the loop that upserts the (coin, today) rows and
  counts created and updated rows.
- **Models** (`models.py` properties): `signal_strength`, `BotUser.__str__`,
  `full_name`, `days_since_registration`, `is_new_user`.
- **Tables** (`tables.dfy`): `update_or_create` on a table with a
  `unique_together` key, as a class holding a map with at most one row per
  key, and the fold of a sequence of upserts.
- **Views** (`views.dfy`): `get_all_direction_predictions` (bullish and
  bearish lists, counts, average confidence, market sentiment) and the
  legacy `get_all_predictions`.
- **IntervalCover** (`interval_cover.dfy`): `min_cover_intervals` of `1.py`.
  It sorts the array by start in place, then runs the two nested greedy
  loops. The answer is proved to be "No" exactly when 1..N cannot be covered,
  and otherwise the minimum number of covering intervals.

Prices and sentiment scores are `real`. A timestamp is whole seconds since
the epoch (UTC), and a date is a day number. "Now" and "today" are
parameters. The scaler and the classifier are opaque functions inside
`Prediction.Artifacts`.

## Model

| member | source | states |
|---|---|---|
| Common.DateOf | subscriptions/tasks.py:778 | `today` is the UTC day that contains the current timestamp |
| Common.IntToStringInjective | subscriptions/models.py:32-37 | the rendered telegram id identifies the id: equal renderings come from equal integers |
| Common.FilterPartition | subscriptions/views.py:158-161 | splitting a list by a predicate and its negation loses and duplicates nothing: the sizes add up and the multisets add up to the list |
| Common.FilterKeepsOrder | subscriptions/views.py:146-161 | appending the kept elements in list order keeps any order that held between earlier and later elements |
| History.DayOfMs | subscriptions/tasks.py:138-139 | the stored date is the UTC day containing the millisecond timestamp |
| History.ChangePercent | subscriptions/tasks.py:145-146 | the change is 0 for the first point and 0 after a zero price; otherwise the previous price moved by the change is the current price |
| History.StatFor | subscriptions/tasks.py:140-146 | the stored price is the point's price and the stored change is the point's `ChangePercent`; the market cap and the volume are present exactly when their lists reach that index, and are saved as whole numbers within one of the sample, not above a non-negative sample |
| History.TruncateTowardZero | subscriptions/models.py:84-86 | the BigIntegerField columns keep `int(x)`: the whole part of x, cut toward zero |
| History.TruncateKeepsWholeNumbers | subscriptions/models.py:84-86 | a whole value is saved unchanged, any value is saved within one of itself, and a value is kept exactly when it is whole |
| History.StoreHistoricalPrices | subscriptions/tasks.py:137-159 | the table ends as one upsert per price point, in order, keyed by (coin, day); the result is the number of points |
| History.DailySeriesStoredExactly | subscriptions/tasks.py:137-157 | with one point per day, every day's row holds that point's values, and the table grows by the number of days it did not hold |
| History.SameDayLaterPointWins | subscriptions/models.py:89 | two points on one day leave a single (coin, date) row that holds the later point |
| History.LastPointOfDayWins | subscriptions/models.py:89 | in any series, a day's (coin, date) row holds the last point of that day, overwriting every earlier point of the same day |
| History.OtherCoinsUntouched | subscriptions/tasks.py:148-157 | storing one coin's series leaves every other coin's rows unchanged |
| Tables.Table.UpdateOrCreate | subscriptions/tasks.py:818-836 | `created` holds exactly when the key was absent; the row at the key becomes the new value, and the table grows by one exactly when a row was created |
| Tables.ApplyAllDomain | subscriptions/models.py:279 | a run of upserts adds exactly its own keys to the table |
| Tables.ApplyAllOutside | subscriptions/models.py:279 | a row whose key no upsert touches keeps its value |
| Tables.ApplyAllLastWins | subscriptions/models.py:279 | a touched key ends with the value of its last upsert |
| Tables.ApplyAllBaseIrrelevant | subscriptions/models.py:279 | the final value of a touched key does not depend on what the table held before |
| Tables.CountNewIsGrowth | subscriptions/tasks.py:833-836 | the number of created rows is exactly the table's growth |
| Tables.RerunIsIdempotent | subscriptions/tasks.py:818-831 | repeating the same upserts changes nothing and creates no row |
| PriceWindow.MeanWithinBounds | subscriptions/tasks.py:383 | the mean of the window lies between any common lower and upper bound of its values |
| PriceWindow.VarianceNonNegative | subscriptions/tasks.py:384 | the volatility feature is never negative |
| PriceWindow.PercentChangeInverse | subscriptions/tasks.py:370 | applying the percent change to the current price gives the next price |
| PriceWindow.PercentChangeSign | subscriptions/tasks.py:370-376 | for a positive price, the change is positive exactly when the price rose and negative exactly when it fell |
| PriceWindow.TrendMirror | subscriptions/tasks.py:683 | the live trend formula on the newest-first list equals the dataset trend formula on the same window oldest first |
| PriceWindow.MeanReverse | subscriptions/tasks.py:681 | the mean does not depend on the window's order |
| PriceWindow.VarianceReverse | subscriptions/tasks.py:682 | the volatility does not depend on the window's order |
| News.Summarize | subscriptions/tasks.py:407-428 | the window's count is its article count; positive + negative <= scored articles <= count; the mean is 0 when no article is scored |
| News.PositiveNegativeBounded | subscriptions/tasks.py:415-416 | no score is counted both as positive and as negative |
| News.UnscoredArticleOnlyCounts | subscriptions/tasks.py:407-414 | an article without sentiment adds one to the count and changes neither the mean nor the two counts |
| News.MeanSentimentBounded | subscriptions/tasks.py:414 | with every score in [-1, 1] the mean sentiment is in [-1, 1] |
| News.DatasetWindowsPartition | subscriptions/tasks.py:389-404 | no article is in both training windows, and their multisets add up to the multiset of the articles dated d-6 .. d (so the sizes add up too) |
| News.LiveWindowsPartition | subscriptions/tasks.py:688-698 | no article is in both live windows, and their multisets add up to the multiset of the articles published from six days before now onward (so the sizes add up too) |
| News.DatasetWindowsUneven | subscriptions/tasks.py:393-404 | the training current window spans four calendar dates and the previous one three: one article per date gives counts 4 and 3 |
| Features.Assemble | subscriptions/tasks.py:431-442 | the four price features pass through unchanged; the alignment is the trend times the current mean sentiment; the deltas are current minus previous; each flag is 0 or 1; a spike is 1 exactly when the current count is above 5 and its change above 3; divergence is 1 exactly when the trend is below -1 and the current mean sentiment above 0.1 |
| Features.DivergenceMeansNegativeAlignment | subscriptions/tasks.py:441-442 | a divergence always comes with a price/sentiment alignment below -0.1 |
| Features.SpikesNeedArticles | subscriptions/tasks.py:437-438 | a spike needs at least six current articles and a previous count at least four lower; two spikes at once need at least twelve |
| Features.Select | subscriptions/tasks.py:792 | the selected row holds the named columns, in the order of the column list |
| Dataset.Window | subscriptions/tasks.py:379-381 | the price window has exactly seven rows: stats i-6 .. i, ending at the anchor |
| Dataset.LabelledBounds | subscriptions/tasks.py:370-376 | label 1 implies a change of at least 0.5 %, and label 0 a change of at most -0.5 % |
| Dataset.AnchorRowSpec | subscriptions/tasks.py:363-465 | an anchor divides by zero exactly when its price is 0, or when the move passes the noise filter and the window's oldest price is 0; it is noise exactly when the move is below 0.5 %; an emitted row is labelled by its move, carries its coin, date and change, and has the window's mean price and trend |
| Dataset.CoinRowsUpToOrigin | subscriptions/tasks.py:363-465 | a coin's rows are exactly the rows its anchors 7 .. j-1 emit |
| Dataset.CoinRowsFailure | subscriptions/tasks.py:368-370 | a coin fails exactly when one of its anchors divides by zero |
| Dataset.CoinRowsErrorSticks | subscriptions/tasks.py:363-370 | once an anchor fails, later anchors do not change the coin's result |
| Dataset.ShortHistoryContributesNothing | subscriptions/tasks.py:360-363 | a coin with fewer than nine stats contributes no rows (under eight by the guard, at eight because the anchor range is empty) |
| Dataset.CoinRowsChronological | subscriptions/tasks.py:363-446 | with date-ordered stats, a coin's rows have strictly increasing dates, all before the date of the next unvisited anchor |
| Dataset.BuildErrorSticks | subscriptions/tasks.py:350-370 | the first failing coin decides the task's result |
| Dataset.BuildUpToOrigin | subscriptions/tasks.py:350-465 | the data list exists exactly when no coin fails, and it holds exactly the rows of the coins |
| Dataset.DatasetRowsLabelled | subscriptions/tasks.py:350-465 | every collected row passes the noise filter, is labelled by its move, and was emitted by an anchor of one of the coins |
| Dataset.CollectAnchor | subscriptions/tasks.py:363-465 | one pass of the inner loop extends the coin's rows so far by the anchor's outcome |
| Dataset.CollectCoinRows | subscriptions/tasks.py:363-465 | the inner loop yields exactly the coin's rows, or the error of its first zero division |
| Dataset.CollectCoin | subscriptions/tasks.py:350-465 | one pass of the outer loop skips a short coin, appends the coin's rows, or fails with its error |
| Dataset.CollectDataset | subscriptions/tasks.py:348-465 | the loop over coins yields exactly the concatenated rows in coin order, or the first error |
| Dataset.DatasetReport | subscriptions/tasks.py:467-486 | an empty data list fails (the 'target' column does not exist); otherwise the total is the number of rows |
| Dataset.ReportCountsAddUp | subscriptions/tasks.py:469-486 | for the collected rows, UP plus DOWN is the total, and UP counts exactly the rows whose next-day change is positive |
| Dataset.PrepareClassificationDataset | subscriptions/tasks.py:342-486 | the task fails with the first zero division or on empty data; otherwise it saves exactly the collected rows and reports counts whose UP and DOWN parts add up to the total |
| Training.FeatureGroupsPartition | subscriptions/tasks.py:614-615 | the news group is sentiment_change and price_sentiment_alignment, and each classifier column is in exactly one group |
| Training.GroupImportanceSplit | subscriptions/tasks.py:617-618 | two groups that split the columns have importances adding up to the total importance |
| Training.PriceAndNewsImportanceCoverAll | subscriptions/tasks.py:614-618 | price and news importances together account for all of the classifier's importance |
| Training.InsertByDateSorted | subscriptions/tasks.py:520 | inserting a row keeps a date-sorted list sorted |
| Training.InsertByDatePermutes | subscriptions/tasks.py:520 | inserting adds exactly the inserted row |
| Training.SortByDateSpec | subscriptions/tasks.py:520 | sorting by date yields a date-ordered permutation of the rows |
| Training.SplitIndex | subscriptions/tasks.py:521 | the split index is the floor of 0.8 n |
| Training.TemporalSplitIsCausal | subscriptions/tasks.py:520-529 | train has `int(0.8 n)` rows, train and test together are the dataset, and no train row is dated after a test row |
| Training.SortedCutIsCausal | subscriptions/tasks.py:523-524 | cutting a date-sorted list leaves no row of the first part dated after a row of the second |
| LiveFeatures.ComputeFeaturesForCoin | subscriptions/tasks.py:660-751 | the outcome is `Insufficient` (the first of the code's two None returns) exactly when fewer than seven stats are dated within the last seven days |
| LiveFeatures.RecentRowsNewestFirst | subscriptions/tasks.py:668-673 | for stats in date order the query's rows come in strictly descending date order, as `order_by('-date')` gives them |
| LiveFeatures.LiveRowsAreLastSeven | subscriptions/tasks.py:668-673 | when the last seven stats are recent, the query returns exactly those, newest first |
| LiveFeatures.LivePriceFeaturesMatchDataset | subscriptions/tasks.py:675-684 | on the same seven rows, the live trend, mean price, volatility and mean volume equal the training set's formulas, and a zero oldest price makes the coin fail |
| LiveFeatures.FutureArticleCountsLive | subscriptions/tasks.py:688-691 | the live current window has no upper bound: an article after `now` counts live, though neither training window of any anchor dated before today sees it |
| Prediction.PostProcess | subscriptions/tasks.py:798-815 | the direction is UP exactly when the class code is 1; the confidence is the larger probability; the estimated change is +1.5 or -1.5 times the confidence, following the direction |
| Prediction.EstimatedPriceRoundTrip | subscriptions/tasks.py:815 | the estimated price is the current price moved by exactly the estimated change |
| Prediction.EstimateFollowsDirection | subscriptions/tasks.py:808-815 | the estimated change lies in [-1.5, 1.5]; an UP prediction never lowers the price and a DOWN one never raises it |
| Prediction.ConfidenceFloor | subscriptions/tasks.py:801-811 | with probabilities adding up to one, the confidence is at least 0.5 and the estimate moves the price by at least 0.75 %, and by at least 1.05 % for a strong signal |
| Prediction.DirectionMayContradictProbabilities | subscriptions/tasks.py:804-805 | post-processing takes the direction from the class code alone: for a code and probabilities that disagree, which the opaque classifier output allows, the direction still follows the code |
| Prediction.PredictCoin | subscriptions/tasks.py:783-836 | one pass of the loop upserts the coin's row if it gets a prediction, and the matching counter goes up |
| Prediction.GenerateDailyPredictions | subscriptions/tasks.py:767-859 | without artifacts nothing is written; otherwise the table ends as the fold of the predictions, created counts the new rows, created + updated counts the coins predicted, and the table grows by created |
| Prediction.PredictionsStep | subscriptions/tasks.py:785-831 | a coin without features adds nothing; a coin with features adds its own upsert at today's key |
| Prediction.PredictionKeys | subscriptions/tasks.py:818-820 | every touched key is today's key of a coin that got a prediction |
| Prediction.UntouchedRows | subscriptions/tasks.py:787-789 | rows of other days, and today's rows of coins without features, are left as they were |
| Prediction.StoredPrediction | subscriptions/models.py:279 | with distinct coins, each coin with features ends with today's row holding its own prediction (price columns as computed, see Left out) |
| Prediction.SecondRunOnlyUpdates | subscriptions/tasks.py:818-836 | a second run on the same day with the same inputs creates no row and leaves the table unchanged |
| Models.SignalStrengthOf | subscriptions/models.py:288-296 | strong exactly when the confidence is at least 0.7, moderate exactly in [0.6, 0.7), weak exactly below 0.6 |
| Models.SignalStrengthMonotone | subscriptions/models.py:291-296 | raising the confidence never gives a weaker bucket |
| Models.DisplayString | subscriptions/models.py:32-37 | "@username (id)" when a username is set, else "first_name (id)" when a first name is set, else "User id"; always longer than the id |
| Models.DisplayStringFallback | subscriptions/models.py:32-37 | the display is "User id" exactly when there is neither a username nor a first name; otherwise it ends with " (id)" |
| Models.FullName | subscriptions/models.py:40-48 | never empty; with both names it is the first name, one space, then the last name; with only a first name it is that name; without a first name but with a username it is '@' then the username; otherwise "User id" |
| Models.FullNameAgreesWithDisplay | subscriptions/models.py:32-48 | with neither a first name nor a username the two fallbacks agree; with only a first name, or a username but no first name, the display is the full name followed by " (id)" |
| Models.IsNewUser | subscriptions/models.py:55-63 | a user is new exactly when registered less than seven whole days (7 * 86400 s) before now |
| Views.GroupByDirection | subscriptions/views.py:143-161 | the bullish list holds exactly the UP rows and the bearish list the others, each in query order |
| Views.GetAllDirectionPredictions | subscriptions/views.py:138-182 | each row lands in exactly one list; bullish + bearish = total; strong signals <= total; the average is the mean confidence; sentiment is 'bullish' exactly when bullish strictly outnumber bearish, so ties are 'bearish' |
| Views.GroupsKeepConfidenceOrder | subscriptions/views.py:140-161 | rows arriving in descending confidence stay in descending confidence within each list |
| Views.AverageConfidenceBounded | subscriptions/views.py:166 | for a non-empty list the average confidence stays within any bounds shared by the confidences; for no rows it is 0 and lies within any bounds around 0 |
| Views.StrongSignalsBoundedByConfidence | subscriptions/views.py:165-166 | with non-negative confidences, 0.7 times the number of strong signals is at most the summed confidence |
| Views.ToLegacyEntry | subscriptions/views.py:60-70 | the direction is UP exactly when the change is positive; a missing or zero confidence is shown as 0.5; the signal is strong exactly when the confidence is above 0.7 |
| Views.GetAllPredictions | subscriptions/views.py:54-79 | one entry per row, in query order; the UP and DOWN counts add up to the total |
| Views.LegacyEdgeCases | subscriptions/views.py:60-70 | a zero change reads as DOWN, and a missing or zero confidence shows 0.5 with a weak signal |
| Views.LegacyStrongIsStricter | subscriptions/views.py:70 | every legacy strong score is strong for direction predictions too, while 0.7 is strong there but not in the legacy view |
| IntervalCover.SortByStart | 1.py:2 | the array ends sorted by start and holds the same intervals |
| IntervalCover.InsertAt | 1.py:2 | one insertion step extends the sorted prefix by one, leaves the rest of the array alone, and keeps the intervals |
| IntervalCover.Reach | 1.py:8-11 | the furthest reach is at least c and at least the end of every interval starting by c + 1 |
| IntervalCover.ReachAttained | 1.py:8-11 | the reach is c itself or the end of an eligible interval |
| IntervalCover.ScanRound | 1.py:8-11 | one inner loop advances the index over exactly the intervals starting by c + 1, and `best_end` becomes the furthest reach, attained by a scanned interval unless it stays c |
| IntervalCover.StuckMeansUncoverable | 1.py:12-13 | when no eligible interval ends beyond c < N, position c + 1 is covered by no interval |
| IntervalCover.GreedyStep | 1.py:14-15 | a round that reaches past c keeps the loop invariant: the chosen intervals, one more, cover 1..best_end and come from the scanned prefix |
| IntervalCover.GreedyRound | 1.py:7-15 | one outer iteration either is stuck, with 1..N uncoverable, or strictly increases `covered_end` and keeps the invariant with count + 1 |
| IntervalCover.GreedyRounds | 1.py:3-16 | the loops stop either stuck, with 1..N uncoverable, or with 1..N covered by `count` intervals taken from the array while count - 1 rounds fall short of N |
| IntervalCover.GreedyReachesFurthest | 1.py:7-16 | any m intervals of the array covering 1..h reach no further than m greedy rounds do |
| IntervalCover.GreedyIsOptimal | 1.py:7-16 | if count - 1 rounds fall short of N, every cover of 1..N has at least count intervals |
| IntervalCover.GreedyAnswerIsMinimum | 1.py:14-17 | when the loops stop with 1..N covered, the count is the size of a minimum cover |
| IntervalCover.Greedy | 1.py:3-17 | the answer is No exactly when 1..N cannot be covered, otherwise the minimum cover size; N <= 0 gives 0 |
| IntervalCover.RenderReadsBack | 1.py:13-17 | the text is "No" exactly for No, and a Yes text reads back to its count |
| IntervalCover.MinCoverIntervals | 1.py:1-17 | the list is left sorted and holds the same intervals; the text is "No" exactly when 1..N cannot be covered, otherwise "Yes" with the minimum number of covering intervals; N <= 0 gives "Yes\n0" |

## Left out

- Network and scheduling: the CoinGecko fetch, `requests` errors and `time.sleep` of `collect_historical_prices`, and its `[:10]` limit on coins; the model takes one coin's already-fetched series. `update_coin_snapshots` and `collect_historical_news` are I/O only.
- FinBERT sentiment scoring (`analyze_with_finbert`, `analyze_all_sentiment`) and `ml/*`: an article's score is an input, or None when no sentiment row is attached.
- The sklearn scaler and classifier, and accuracy, AUC and the report: the scaler and the classifier are opaque functions. `joblib`, CSV and JSON files are not modelled: the CSV content is the `saved` output, and a missing model file is the `None` artifacts.
- `np.std` needs a square root and is modelled as the population variance (its square); non-negativity and order independence hold for both. Floating-point rounding is left aside by using `real`.
- Null volumes and prices: `float(None)` raising on a missing volume is not modelled; stats carry a number.
- Prediction.StoredPrediction: `current_price` and `estimated_price` are DecimalField(max_digits=20, decimal_places=8) columns, so the saved values are the computed ones rounded to 8 decimal places, and a value with more than 12 integer digits makes the save raise and the coin be skipped; the model stores the computed reals and does not model this quantization or that failure.
- Exceptions in the prediction loop other than the zero oldest price, which the model catches as `Failed`, are not modelled; the coin skip is the same.
- Timestamps are whole seconds; sub-second parts and time zones other than UTC are not modelled.
- Formatting of floats in strings (`:+.2f`, `:.1f%`) and `isoformat` dates: the views return the numbers the strings are made from.
- Training.SortByDate: `sort_values` is not stable by default, so only date order and permutation are promised, not the order among rows of one date.
- The training set is not sorted by date when it is built (rows are appended coin by coin); the model follows the code, and the split sorts it. The code has no minimum-size check on the dataset before training, and none is modelled.
- Subscription's `unique_together` (user, coin) key: no core operation writes subscriptions.
- Telegram delivery and `bot/*`, `subscriptions/admin.py`, `urls.py`, migrations, `core/celery.py`, `compare_models.py`, `ai_prediction/*`, `PriceEvent`: outside the core.
- `get_prediction`, `get_direction_prediction`, `get_model_info` and `generate_model_report`: lookups and constant reports, not modelled.
- The stdin parsing of `1.py` (lines 20-22): the model takes N and the interval array.
- IntervalCover.SortByStart: `list.sort` is stable, and so is the insertion sort, but the contract states only sorted order and the same multiset, not the order among intervals with equal starts; the greedy answer depends only on the multiset.
- IntervalCover.GreedyRounds: the interval scan reads the array through a ghost copy `a[..]` of its contents; the array is not changed during the loops.

=== FILE: common.dfy ===
/** Shared vocabulary of the model: optional values, results, sums over
    reals, sequence reversal, and Python's `str()` of an integer. */
module Common {

  datatype Option<+T> = None | Some(value: T)

  datatype Result<+T, +E> = Ok(value: T) | Err(error: E)

  /** Seconds in one day; timestamps are whole seconds since the epoch (UTC). */
  const SecondsPerDay: int := 86400

  /** The calendar date (days since the epoch, UTC) of a timestamp in seconds.
      Dafny's `/` floors for a positive divisor, as a UTC `.date()` does. */
  function DateOf(t: int): (d: int)
    ensures d * SecondsPerDay <= t < (d + 1) * SecondsPerDay
  {
    t / SecondsPerDay
  }

  function Max(a: real, b: real): (m: real)
    ensures m >= a && m >= b
    ensures m == a || m == b
  {
    if a >= b then a else b
  }

  /** Python truthiness of an optional string: `None` and `""` are falsy. */
  predicate Truthy(s: Option<string>)
  {
    s.Some? && s.value != ""
  }

  // ---------------------------------------------------------------------
  // Sums and reversal

  function Sum(xs: seq<real>): real
  {
    if xs == [] then 0.0 else xs[0] + Sum(xs[1..])
  }

  function Reverse<T>(xs: seq<T>): (r: seq<T>)
    ensures |r| == |xs|
  {
    if xs == [] then [] else Reverse(xs[1..]) + [xs[0]]
  }

  lemma {:induction false} ReverseAt<T>(xs: seq<T>, k: nat)
    requires k < |xs|
    ensures Reverse(xs)[k] == xs[|xs| - 1 - k]
  {
    if k < |xs| - 1 {
      ReverseAt(xs[1..], k);
    }
  }

  lemma {:induction false} SumAppend(a: seq<real>, b: seq<real>)
    ensures Sum(a + b) == Sum(a) + Sum(b)
  {
    if a == [] {
      assert a + b == b;
    } else {
      assert (a + b)[1..] == a[1..] + b;
      SumAppend(a[1..], b);
    }
  }

  lemma {:induction false} SumReverse(xs: seq<real>)
    ensures Sum(Reverse(xs)) == Sum(xs)
  {
    if xs != [] {
      SumReverse(xs[1..]);
      SumAppend(Reverse(xs[1..]), [xs[0]]);
      assert Sum([xs[0]]) == xs[0] + Sum([]);
    }
  }

  /** Reversal distributes over concatenation in swapped order. */
  lemma {:induction false} ReverseAppend<T>(a: seq<T>, b: seq<T>)
    ensures Reverse(a + b) == Reverse(b) + Reverse(a)
  {
    if a == [] {
      assert a + b == b;
    } else {
      assert (a + b)[1..] == a[1..] + b;
      ReverseAppend(a[1..], b);
    }
  }

  // ---------------------------------------------------------------------
  // Decimal rendering, as Python's str() of an int

  function DigitChar(d: nat): (c: char)
    requires d < 10
    ensures '0' <= c <= '9'
  {
    (48 + d) as char
  }

  function DigitValue(c: char): (d: nat)
    requires '0' <= c <= '9'
    ensures d < 10 && DigitChar(d) == c
  {
    (c as int - 48) as nat
  }

  predicate AllDigits(s: string)
  {
    forall i :: 0 <= i < |s| ==> '0' <= s[i] <= '9'
  }

  /** Decimal digits of `n`, most significant first, without leading zeros. */
  function NatToString(n: nat): (s: string)
    ensures |s| >= 1 && AllDigits(s)
    ensures s[0] == '0' ==> n == 0
  {
    if n < 10 then [DigitChar(n)] else NatToString(n / 10) + [DigitChar(n % 10)]
  }

  /** Value of a string of decimal digits, the inverse of NatToString. */
  function ParseNat(s: string): nat
    requires AllDigits(s)
  {
    if s == [] then 0 else 10 * ParseNat(s[..|s| - 1]) + DigitValue(s[|s| - 1])
  }

  lemma {:induction false} ParseNatToString(n: nat)
    ensures ParseNat(NatToString(n)) == n
  {
    var s := NatToString(n);
    if n < 10 {
      assert s[..|s| - 1] == [];
    } else {
      assert s[..|s| - 1] == NatToString(n / 10);
      ParseNatToString(n / 10);
    }
  }

  /** `str(i)` for a Python int: a minus sign, then the digits of |i|. */
  function IntToString(i: int): (s: string)
    ensures |s| >= 1
    ensures (s[0] == '-') <==> i < 0
  {
    if i < 0 then "-" + NatToString(-i) else NatToString(i)
  }

  /** Distinct naturals have distinct decimal renderings. */
  lemma NatToStringInjective(m: nat, n: nat)
    requires NatToString(m) == NatToString(n)
    ensures m == n
  {
    ParseNatToString(m);
    ParseNatToString(n);
  }

  /** The integer can always be read back from its decimal rendering. */
  lemma IntToStringInjective(i: int, j: int)
    requires IntToString(i) == IntToString(j)
    ensures i == j
  {
    var s := IntToString(i);
    assert (i < 0) == (j < 0) by {
      assert (s[0] == '-') == (i < 0) && (s[0] == '-') == (j < 0);
    }
    if i < 0 {
      assert s[1..] == NatToString(-i) && s[1..] == NatToString(-j);
      NatToStringInjective(-i, -j);
    } else {
      NatToStringInjective(i, j);
    }
  }

  // ---------------------------------------------------------------------
  // Filtering, as a list comprehension with an `if`

  function Filter<T(!new)>(xs: seq<T>, keep: T -> bool): (r: seq<T>)
    ensures |r| <= |xs|
    ensures forall x :: x in r <==> x in xs && keep(x)
  {
    if xs == [] then []
    else if keep(xs[0]) then [xs[0]] + Filter(xs[1..], keep)
    else Filter(xs[1..], keep)
  }

  lemma {:induction false} FilterAppend<T(!new)>(a: seq<T>, b: seq<T>, keep: T -> bool)
    ensures Filter(a + b, keep) == Filter(a, keep) + Filter(b, keep)
  {
    if a == [] {
      assert a + b == b;
    } else {
      assert (a + b)[1..] == a[1..] + b;
      FilterAppend(a[1..], b, keep);
    }
  }

  /** Filtering a list with one more element at the end. */
  lemma FilterSnoc<T(!new)>(xs: seq<T>, x: T, keep: T -> bool)
    ensures Filter(xs + [x], keep) == Filter(xs, keep) + (if keep(x) then [x] else [])
  {
    FilterAppend(xs, [x], keep);
    assert Filter([x], keep) == if keep(x) then [x] else [];
  }

  lemma {:induction false} FilterNone<T(!new)>(xs: seq<T>, keep: T -> bool)
    requires forall x :: x in xs ==> !keep(x)
    ensures Filter(xs, keep) == []
  {
    if xs != [] {
      FilterNone(xs[1..], keep);
    }
  }

  lemma {:induction false} FilterAll<T(!new)>(xs: seq<T>, keep: T -> bool)
    requires forall x :: x in xs ==> keep(x)
    ensures Filter(xs, keep) == xs
  {
    if xs != [] {
      FilterAll(xs[1..], keep);
    }
  }

  /** Splitting by a predicate and its negation partitions the list. */
  lemma {:induction false} FilterPartition<T(!new)>(xs: seq<T>, keep: T -> bool, drop: T -> bool)
    requires forall x :: x in xs ==> drop(x) == !keep(x)
    ensures |Filter(xs, keep)| + |Filter(xs, drop)| == |xs|
    ensures multiset(Filter(xs, keep)) + multiset(Filter(xs, drop)) == multiset(xs)
  {
    if xs != [] {
      assert forall x :: x in xs[1..] ==> x in xs;
      FilterPartition(xs[1..], keep, drop);
      assert xs == [xs[0]] + xs[1..];
    }
  }

  /** Every element is related by `before` to every later one. */
  predicate OrderedBy<T>(xs: seq<T>, before: (T, T) -> bool)
  {
    forall i, j :: 0 <= i < j < |xs| ==> before(xs[i], xs[j])
  }

  /** Filtering keeps the relative order of the kept elements: an ordering
      that holds between every earlier and later element still holds. */
  lemma {:induction false} FilterKeepsOrder<T(!new)>(xs: seq<T>, keep: T -> bool, before: (T, T) -> bool)
    requires OrderedBy(xs, before)
    ensures OrderedBy(Filter(xs, keep), before)
  {
    if xs != [] {
      var rest := Filter(xs[1..], keep);
      FilterKeepsOrder(xs[1..], keep, before);
      if keep(xs[0]) {
        var r := [xs[0]] + rest;
        forall i, j | 0 <= i < j < |r|
          ensures before(r[i], r[j])
        {
          assert r[j] == rest[j - 1];
          if i == 0 {
            assert rest[j - 1] in rest;
            assert r[j] in xs[1..];
            var k :| 0 <= k < |xs[1..]| && xs[1..][k] == r[j];
            assert xs[k + 1] == r[j];
            assert before(xs[0], xs[k + 1]);
          } else {
            assert r[i] == rest[i - 1];
            assert before(rest[i - 1], rest[j - 1]);
          }
        }
        assert Filter(xs, keep) == r;
      }
    }
  }
}

=== FILE: dataset.dfy ===
/** Construction of the classifier's training set: for every coin, slide an
    anchor over its date-ordered daily stats, drop near-zero next-day moves,
    label the rest UP (1) or DOWN (0), and attach the anchor's features. */
module Dataset {
  import opened Common
  import opened PriceWindow
  import News
  import Features

  /** One stored CoinDailyStat row (date, price, volume). */
  datatype DailyStat = DailyStat(date: int, price: real, volume: real)

  /** A coin with its daily stats in ascending date order (the store's
      `order_by('date')`) and its news articles. */
  datatype CoinHistory = CoinHistory(
    symbol: string,
    stats: seq<DailyStat>,
    articles: seq<News.Article>)

  datatype TrainingRow = TrainingRow(
    coin: string,
    date: int,
    target: int,
    changePercent: real,
    features: Features.FeatureVector)

  /** How the task fails: ZeroDivisionError at the first anchor that divides
      by a zero price (naming that coin and anchor date), or, when no row was
      collected, the KeyError of reading the 'target' column of a DataFrame
      built from an empty list. */
  datatype DatasetError = ZeroPrice(coin: string, date: int) | NoSamples

  /** The task's return value: the sample count and the two label counts. */
  datatype Report = Report(totalSamples: nat, upCount: nat, downCount: nat)

  datatype AnchorOutcome = Noise | Emitted(row: TrainingRow) | DivisionByZero

  const MinHistory: nat := 8
  const FirstAnchor: nat := 7
  const NoiseCutoff: real := 0.5

  function Abs(x: real): real
  {
    if x < 0.0 then -x else x
  }

  /** Dates strictly increase, as the (coin, date) key and the ordering give. */
  predicate Chronological(stats: seq<DailyStat>)
  {
    forall i, j :: 0 <= i < j < |stats| ==> stats[i].date < stats[j].date
  }

  function Prices(rows: seq<DailyStat>): (p: seq<real>)
    ensures |p| == |rows|
    ensures forall k :: 0 <= k < |rows| ==> p[k] == rows[k].price
  {
    seq(|rows|, k requires 0 <= k < |rows| => rows[k].price)
  }

  function Volumes(rows: seq<DailyStat>): (v: seq<real>)
    ensures |v| == |rows|
    ensures forall k :: 0 <= k < |rows| ==> v[k] == rows[k].volume
  {
    seq(|rows|, k requires 0 <= k < |rows| => rows[k].volume)
  }

  /** `daily_stats[i-6:i+1]`: the seven rows ending at anchor `i`. */
  function Window(c: CoinHistory, i: int): (w: seq<DailyStat>)
    requires FirstAnchor <= i < |c.stats|
    ensures |w| == WindowSize
    ensures w[0] == c.stats[i - 6] && w[WindowSize - 1] == c.stats[i]
    ensures forall k :: 0 <= k < WindowSize ==> w[k] == c.stats[i - 6 + k]
  {
    c.stats[i - 6..i + 1]
  }

  /** Price features of an oldest-first window. */
  function PriceFeaturesOf(w: seq<DailyStat>): Features.PriceFeatures
    requires |w| > 0 && w[0].price != 0.0
  {
    var p := Prices(w);
    Features.PriceFeatures(TrendOldestFirst(p), Variance(p), Mean(Volumes(w)), Mean(p))
  }

  /** What a training row promises: the next-day move passed the noise
      filter and the label is its direction. */
  predicate Labelled(r: TrainingRow)
  {
    Abs(r.changePercent) >= NoiseCutoff
    && (r.target == 0 || r.target == 1)
    && (r.target == 1 <==> r.changePercent > 0.0)
  }

  lemma LabelledBounds(r: TrainingRow)
    requires Labelled(r)
    ensures r.target == 1 ==> r.changePercent >= 0.5
    ensures r.target == 0 ==> r.changePercent <= -0.5
  {
  }

  /** The row an anchor contributes, if any: the next-day change is computed
      first (dividing by the anchor's price), the noise filter applies, and
      only then the window's trend divides by the window's oldest price. */
  function AnchorRow(c: CoinHistory, i: int): AnchorOutcome
    requires FirstAnchor <= i < |c.stats| - 1
  {
    var current, next := c.stats[i], c.stats[i + 1];
    if current.price == 0.0 then DivisionByZero
    else
      var change := PercentChange(current.price, next.price);
      if Abs(change) < NoiseCutoff then Noise
      else
        var w := Window(c, i);
        if w[0].price == 0.0 then DivisionByZero
        else
          var d := current.date;
          var cur := News.Summarize(News.DatasetCurrent(c.articles, d));
          var prev := News.Summarize(News.DatasetPrevious(c.articles, d));
          Emitted(TrainingRow(
            c.symbol, d,
            if change > 0.0 then 1 else 0,
            change,
            Features.Assemble(PriceFeaturesOf(w), cur, prev)))
  }

  /** When an anchor divides by zero, is dropped as noise, or emits a row,
      and what an emitted row holds. */
  lemma AnchorRowSpec(c: CoinHistory, i: int)
    requires FirstAnchor <= i < |c.stats| - 1
    ensures AnchorRow(c, i).DivisionByZero? <==>
              c.stats[i].price == 0.0
              || (Abs(PercentChange(c.stats[i].price, c.stats[i + 1].price)) >= NoiseCutoff
                  && c.stats[i - 6].price == 0.0)
    ensures AnchorRow(c, i).Noise? <==>
              c.stats[i].price != 0.0
              && Abs(PercentChange(c.stats[i].price, c.stats[i + 1].price)) < NoiseCutoff
    ensures AnchorRow(c, i).Emitted? ==>
              var r := AnchorRow(c, i).row;
              Labelled(r)
              && r.coin == c.symbol
              && r.date == c.stats[i].date
              && r.changePercent == PercentChange(c.stats[i].price, c.stats[i + 1].price)
              && r.features.avgPrice == Mean(Prices(Window(c, i)))
              && r.features.priceTrend == TrendOldestFirst(Prices(Window(c, i)))
  {
  }

  /** An emitted row carries its anchor's date. */
  lemma AnchorRowDate(c: CoinHistory, i: int)
    requires FirstAnchor <= i < |c.stats| - 1
    ensures AnchorRow(c, i).Emitted? ==> AnchorRow(c, i).row.date == c.stats[i].date
  {
    AnchorRowSpec(c, i);
  }

  /** The rows a run of anchor outcomes yields in order, or the position of
      the first division by zero, which ends the run. */
  function Gather(os: seq<AnchorOutcome>): (res: Result<seq<TrainingRow>, nat>)
    ensures res.Err? ==> res.error < |os| && os[res.error].DivisionByZero?
    ensures res.Ok? ==> |res.value| <= |os|
  {
    if os == [] then Ok([])
    else
      match Gather(os[..|os| - 1])
      case Err(k) => Err(k)
      case Ok(rows) =>
        match os[|os| - 1]
        case Noise => Ok(rows)
        case Emitted(r) => Ok(rows + [r])
        case DivisionByZero => Err(|os| - 1)
  }

  /** The outcomes of anchors FirstAnchor .. j-1, in order. */
  function Outcomes(c: CoinHistory, j: int): (os: seq<AnchorOutcome>)
    requires FirstAnchor <= j <= |c.stats| - 1
    ensures |os| == j - FirstAnchor
    decreases j
  {
    if j == FirstAnchor then [] else Outcomes(c, j - 1) + [AnchorRow(c, j - 1)]
  }

  /** Position k of the outcomes is anchor FirstAnchor + k. */
  lemma {:induction false} OutcomeAt(c: CoinHistory, j: int, k: int)
    requires FirstAnchor <= j <= |c.stats| - 1 && 0 <= k < j - FirstAnchor
    ensures Outcomes(c, j)[k] == AnchorRow(c, FirstAnchor + k)
    decreases j
  {
    if k < j - 1 - FirstAnchor {
      OutcomeAt(c, j - 1, k);
    }
  }

  /** Rows of anchors FirstAnchor .. j-1, or the first division by zero,
      reported with the coin and the failing anchor's date. */
  function CoinRowsUpTo(c: CoinHistory, j: int): Result<seq<TrainingRow>, DatasetError>
    requires FirstAnchor <= j <= |c.stats| - 1
  {
    match Gather(Outcomes(c, j))
    case Ok(rows) => Ok(rows)
    case Err(k) => Err(ZeroPrice(c.symbol, c.stats[FirstAnchor + k].date))
  }

  /** All rows of one coin; coins with fewer than eight stats are skipped. */
  function CoinRows(c: CoinHistory): Result<seq<TrainingRow>, DatasetError>
  {
    if |c.stats| < MinHistory then Ok([]) else CoinRowsUpTo(c, |c.stats| - 1)
  }

  /** Rows of the first `k` coins, in coin order, then anchor order. */
  function BuildUpTo(coins: seq<CoinHistory>, k: nat): Result<seq<TrainingRow>, DatasetError>
    requires k <= |coins|
  {
    if k == 0 then Ok([])
    else
      match BuildUpTo(coins, k - 1)
      case Err(e) => Err(e)
      case Ok(rows) =>
        match CoinRows(coins[k - 1])
        case Err(e) => Err(e)
        case Ok(more) => Ok(rows + more)
  }

  function Build(coins: seq<CoinHistory>): Result<seq<TrainingRow>, DatasetError>
  {
    BuildUpTo(coins, |coins|)
  }

  /** Once a run of outcomes hits a division by zero, later outcomes change
      nothing. */
  lemma {:induction false} GatherErrorSticks(os: seq<AnchorOutcome>, m: nat)
    requires m <= |os| && Gather(os[..m]).Err?
    ensures Gather(os) == Gather(os[..m])
    decreases |os|
  {
    if m < |os| {
      var p := os[..|os| - 1];
      assert p[..m] == os[..m];
      GatherErrorSticks(p, m);
    } else {
      assert os[..m] == os;
    }
  }

  /** Every gathered row was emitted by one of the outcomes. */
  lemma {:induction false} GatherFrom(os: seq<AnchorOutcome>, rows: seq<TrainingRow>, r: TrainingRow)
    requires Gather(os) == Ok(rows) && r in rows
    ensures exists k :: 0 <= k < |os| && os[k] == Emitted(r)
    decreases |os|
  {
    var p := os[..|os| - 1];
    var before := Gather(p).value;
    var last := os[|os| - 1];
    if r in before {
      GatherFrom(p, before, r);
      var k :| 0 <= k < |p| && p[k] == Emitted(r);
      assert os[k] == Emitted(r);
    } else {
      assert last == Emitted(r);
    }
  }

  /** Every emitted row is gathered. */
  lemma {:induction false} GatherHas(os: seq<AnchorOutcome>, rows: seq<TrainingRow>, k: nat)
    requires Gather(os) == Ok(rows) && k < |os| && os[k].Emitted?
    ensures os[k].row in rows
    decreases |os|
  {
    var p := os[..|os| - 1];
    var before := Gather(p).value;
    assert rows == if os[|os| - 1].Emitted? then before + [os[|os| - 1].row] else before;
    if k < |os| - 1 {
      assert p[k] == os[k];
      GatherHas(p, before, k);
    }
  }

  /** A successful run has no division by zero. */
  lemma {:induction false} GatherNoZero(os: seq<AnchorOutcome>)
    requires Gather(os).Ok?
    ensures forall k :: 0 <= k < |os| ==> !os[k].DivisionByZero?
    decreases |os|
  {
    if os != [] {
      var p := os[..|os| - 1];
      GatherNoZero(p);
      assert forall k :: 0 <= k < |p| ==> p[k] == os[k];
    }
  }

  /** The gathered rows keep the order of the outcomes that emitted them. */
  lemma {:induction false} GatherKeepsDateOrder(os: seq<AnchorOutcome>, rows: seq<TrainingRow>)
    requires Gather(os) == Ok(rows)
    requires forall a, b :: 0 <= a < b < |os| && os[a].Emitted? && os[b].Emitted? ==> os[a].row.date < os[b].row.date
    ensures forall a, b :: 0 <= a < b < |rows| ==> rows[a].date < rows[b].date
    decreases |os|
  {
    if os != [] {
      var p := os[..|os| - 1];
      var before := Gather(p).value;
      var last := os[|os| - 1];
      assert forall a, b :: 0 <= a < b < |p| ==> p[a] == os[a] && p[b] == os[b];
      GatherKeepsDateOrder(p, before);
      if last.Emitted? {
        assert rows == before + [last.row];
        forall a | 0 <= a < |before|
          ensures before[a].date < last.row.date
        {
          GatherFrom(p, before, before[a]);
          var k :| 0 <= k < |p| && p[k] == Emitted(before[a]);
          assert os[k] == Emitted(before[a]);
        }
        forall a, b | 0 <= a < b < |rows|
          ensures rows[a].date < rows[b].date
        {
          assert rows[a] == before[a];
          if b < |before| {
            assert rows[b] == before[b];
          }
        }
      } else {
        assert rows == before;
      }
    }
  }

  /** Outcomes of a shorter range are a prefix of those of a longer one. */
  lemma {:induction false} OutcomesPrefix(c: CoinHistory, j: int, j2: int)
    requires FirstAnchor <= j <= j2 <= |c.stats| - 1
    ensures Outcomes(c, j2)[..j - FirstAnchor] == Outcomes(c, j)
    decreases j2
  {
    if j < j2 {
      OutcomesPrefix(c, j, j2 - 1);
      assert Outcomes(c, j2)[..j2 - 1 - FirstAnchor] == Outcomes(c, j2 - 1);
    } else {
      assert Outcomes(c, j2)[..j - FirstAnchor] == Outcomes(c, j2);
    }
  }

  /** The first division by zero aborts the rest of a coin's anchors. */
  lemma CoinRowsErrorSticks(c: CoinHistory, j: int, j2: int)
    requires FirstAnchor <= j <= j2 <= |c.stats| - 1
    requires CoinRowsUpTo(c, j).Err?
    ensures CoinRowsUpTo(c, j2) == CoinRowsUpTo(c, j)
  {
    OutcomesPrefix(c, j, j2);
    GatherErrorSticks(Outcomes(c, j2), j - FirstAnchor);
  }

  /** An error at some anchor is the coin's result. */
  lemma CoinRowsErrorIsFinal(c: CoinHistory, j: int)
    requires |c.stats| >= MinHistory && FirstAnchor <= j <= |c.stats| - 1
    requires CoinRowsUpTo(c, j).Err?
    ensures CoinRows(c) == CoinRowsUpTo(c, j)
  {
    CoinRowsErrorSticks(c, j, |c.stats| - 1);
  }

  /** The first failing coin aborts the whole build. */
  lemma {:induction false} BuildErrorSticks(coins: seq<CoinHistory>, k: nat, k2: nat)
    requires k <= k2 <= |coins|
    requires BuildUpTo(coins, k).Err?
    ensures BuildUpTo(coins, k2) == BuildUpTo(coins, k)
    decreases k2 - k
  {
    if k < k2 {
      BuildErrorSticks(coins, k, k2 - 1);
    }
  }

  /** A coin's rows are exactly the rows its anchors 7 .. j-1 emit. */
  lemma CoinRowsUpToOrigin(c: CoinHistory, j: int, rows: seq<TrainingRow>)
    requires FirstAnchor <= j <= |c.stats| - 1
    requires CoinRowsUpTo(c, j) == Ok(rows)
    ensures forall r :: r in rows <==> exists i :: FirstAnchor <= i < j && AnchorRow(c, i) == Emitted(r)
  {
    var os := Outcomes(c, j);
    assert Gather(os) == Ok(rows);
    forall r | r in rows
      ensures exists i :: FirstAnchor <= i < j && AnchorRow(c, i) == Emitted(r)
    {
      GatherFrom(os, rows, r);
      var k :| 0 <= k < |os| && os[k] == Emitted(r);
      OutcomeAt(c, j, k);
    }
    forall i, r | FirstAnchor <= i < j && AnchorRow(c, i) == Emitted(r)
      ensures r in rows
    {
      OutcomeAt(c, j, i - FirstAnchor);
      GatherHas(os, rows, i - FirstAnchor);
    }
  }

  /** A coin fails exactly when one of its anchors divides by zero. */
  lemma CoinRowsFailure(c: CoinHistory, j: int)
    requires FirstAnchor <= j <= |c.stats| - 1
    ensures CoinRowsUpTo(c, j).Err? <==> exists i :: FirstAnchor <= i < j && AnchorRow(c, i).DivisionByZero?
  {
    var os := Outcomes(c, j);
    if Gather(os).Ok? {
      GatherNoZero(os);
      forall i | FirstAnchor <= i < j
        ensures !AnchorRow(c, i).DivisionByZero?
      {
        OutcomeAt(c, j, i - FirstAnchor);
      }
    } else {
      var k := Gather(os).error;
      OutcomeAt(c, j, k);
    }
  }

  /** Histories shorter than nine stats contribute no rows: the guard skips
      fewer than eight, and with exactly eight the anchor range 7 .. len-2 is
      empty. */
  lemma ShortHistoryContributesNothing(c: CoinHistory)
    requires |c.stats| < 9
    ensures CoinRows(c) == Ok([])
  {
    if |c.stats| == MinHistory {
      assert Outcomes(c, FirstAnchor) == [];
    }
  }

  /** Anchors are visited in order, so with chronological stats a coin's rows
      have strictly increasing dates, all before the date of stat j. */
  lemma CoinRowsChronological(c: CoinHistory, j: int, rows: seq<TrainingRow>)
    requires Chronological(c.stats)
    requires FirstAnchor <= j <= |c.stats| - 1
    requires CoinRowsUpTo(c, j) == Ok(rows)
    ensures forall a, b :: 0 <= a < b < |rows| ==> rows[a].date < rows[b].date
    ensures forall a :: 0 <= a < |rows| ==> rows[a].date < c.stats[j].date
  {
    var os := Outcomes(c, j);
    assert Gather(os) == Ok(rows);
    forall a, b | 0 <= a < b < |os| && os[a].Emitted? && os[b].Emitted?
      ensures os[a].row.date < os[b].row.date
    {
      OutcomeAt(c, j, a);
      OutcomeAt(c, j, b);
      AnchorRowDate(c, FirstAnchor + a);
      AnchorRowDate(c, FirstAnchor + b);
    }
    GatherKeepsDateOrder(os, rows);
    forall a | 0 <= a < |rows|
      ensures rows[a].date < c.stats[j].date
    {
      GatherFrom(os, rows, rows[a]);
      var k :| 0 <= k < |os| && os[k] == Emitted(rows[a]);
      OutcomeAt(c, j, k);
      AnchorRowDate(c, FirstAnchor + k);
    }
  }

  /** The first k coins succeed exactly when each of them does, and the rows
      are the union of their rows. */
  lemma {:induction false} BuildUpToOrigin(coins: seq<CoinHistory>, k: nat)
    requires k <= |coins|
    ensures BuildUpTo(coins, k).Ok? <==> forall j :: 0 <= j < k ==> CoinRows(coins[j]).Ok?
    ensures BuildUpTo(coins, k).Ok? ==>
              forall r :: r in BuildUpTo(coins, k).value <==>
                exists j :: 0 <= j < k && CoinRows(coins[j]).Ok? && r in CoinRows(coins[j]).value
  {
    if k > 0 {
      BuildUpToOrigin(coins, k - 1);
    }
  }

  /** Every row of the training set passed the noise filter, carries the
      direction of the next-day move as its label, and was emitted by some
      anchor 7 <= i <= len-2 of some coin. */
  lemma DatasetRowsLabelled(coins: seq<CoinHistory>, rows: seq<TrainingRow>)
    requires Build(coins) == Ok(rows)
    ensures forall r :: r in rows ==> Labelled(r)
    ensures forall r :: r in rows ==>
              exists k, i :: 0 <= k < |coins| && FirstAnchor <= i < |coins[k].stats| - 1
                             && AnchorRow(coins[k], i) == Emitted(r)
  {
    BuildUpToOrigin(coins, |coins|);
    forall r | r in rows
      ensures Labelled(r)
      ensures exists k, i :: 0 <= k < |coins| && FirstAnchor <= i < |coins[k].stats| - 1
                             && AnchorRow(coins[k], i) == Emitted(r)
    {
      var k :| 0 <= k < |coins| && CoinRows(coins[k]).Ok? && r in CoinRows(coins[k]).value;
      var c := coins[k];
      assert |c.stats| >= MinHistory;
      CoinRowsUpToOrigin(c, |c.stats| - 1, CoinRows(c).value);
      var i :| FirstAnchor <= i < |c.stats| - 1 && AnchorRow(c, i) == Emitted(r);
      AnchorRowSpec(c, i);
    }
  }

  /** One anchor more: a division by zero ends the coin with an error, noise
      adds nothing, and an emitted row is appended. */
  lemma CoinRowsUpToStep(c: CoinHistory, j: int, rows: seq<TrainingRow>)
    requires FirstAnchor <= j < |c.stats| - 1
    requires CoinRowsUpTo(c, j) == Ok(rows)
    ensures AnchorRow(c, j).DivisionByZero? ==> CoinRowsUpTo(c, j + 1) == Err(ZeroPrice(c.symbol, c.stats[j].date))
    ensures AnchorRow(c, j).Noise? ==> CoinRowsUpTo(c, j + 1) == Ok(rows)
    ensures AnchorRow(c, j).Emitted? ==> CoinRowsUpTo(c, j + 1) == Ok(rows + [AnchorRow(c, j).row])
  {
    var os := Outcomes(c, j + 1);
    assert os[..|os| - 1] == Outcomes(c, j);
  }

  /** One pass of the inner loop at anchor i: the rows so far, extended by
      this anchor's row, or the coin's division-by-zero error. */
  method CollectAnchor(c: CoinHistory, i: int, rows: seq<TrainingRow>) returns (next: Result<seq<TrainingRow>, DatasetError>)
    requires FirstAnchor <= i < |c.stats| - 1
    requires CoinRowsUpTo(c, i) == Ok(rows)
    ensures next == CoinRowsUpTo(c, i + 1)
  {
    var outcome := AnchorRow(c, i);
    CoinRowsUpToStep(c, i, rows);
    match outcome
    case DivisionByZero => next := Err(ZeroPrice(c.symbol, c.stats[i].date));
    case Noise => next := Ok(rows);
    case Emitted(row) => next := Ok(rows + [row]);
  }

  /** The inner loop of `prepare_classification_dataset` for one coin with
      at least eight stats: anchors 7 .. len-2, appending each emitted row. */
  method CollectCoinRows(c: CoinHistory) returns (res: Result<seq<TrainingRow>, DatasetError>)
    requires |c.stats| >= MinHistory
    ensures res == CoinRows(c)
  {
    var rows: seq<TrainingRow> := [];
    var i := FirstAnchor;
    while i < |c.stats| - 1
      invariant FirstAnchor <= i <= |c.stats| - 1
      invariant CoinRowsUpTo(c, i) == Ok(rows)
    {
      var next := CollectAnchor(c, i, rows);
      if next.Err? {
        CoinRowsErrorIsFinal(c, i + 1);
        return next;
      }
      rows := next.value;
      i := i + 1;
    }
    assert CoinRows(c) == Ok(rows);
    return Ok(rows);
  }

  /** One pass of the outer loop at coin k: the data so far, extended by the
      coin's rows (none for a short history), or the coin's error. */
  method CollectCoin(coins: seq<CoinHistory>, k: nat, data: seq<TrainingRow>)
    returns (next: Result<seq<TrainingRow>, DatasetError>)
    requires k < |coins| && BuildUpTo(coins, k) == Ok(data)
    ensures next == BuildUpTo(coins, k + 1)
  {
    if |coins[k].stats| >= MinHistory {
      var coinRows := CollectCoinRows(coins[k]);
      if coinRows.Err? {
        return coinRows;
      }
      return Ok(data + coinRows.value);
    }
    assert data + [] == data;
    return Ok(data);
  }

  /** The loop over coins of `prepare_classification_dataset`, appending
      each coin's rows to the data list; the first division by zero aborts. */
  method CollectDataset(coins: seq<CoinHistory>)
    returns (res: Result<seq<TrainingRow>, DatasetError>)
    ensures res == Build(coins)
  {
    var data: seq<TrainingRow> := [];
    var k := 0;
    while k < |coins|
      invariant 0 <= k <= |coins|
      invariant BuildUpTo(coins, k) == Ok(data)
    {
      var next := CollectCoin(coins, k, data);
      if next.Err? {
        BuildErrorSticks(coins, k + 1, |coins|);
        return next;
      }
      data := next.value;
      k := k + 1;
    }
    return Ok(data);
  }

  // ---------------------------------------------------------------------
  // The task's report

  predicate IsUpRow(r: TrainingRow)
  {
    r.target == 1
  }

  predicate IsDownRow(r: TrainingRow)
  {
    r.target == 0
  }

  /** The counts the task returns for its data list; an empty list fails. */
  function DatasetReport(rows: seq<TrainingRow>): (res: Result<Report, DatasetError>)
    ensures res.Err? <==> rows == []
    ensures res.Err? ==> res.error == NoSamples
    ensures res.Ok? ==> res.value.totalSamples == |rows| > 0
  {
    if rows == [] then Err(NoSamples)
    else Ok(Report(|rows|, |Filter(rows, IsUpRow)|, |Filter(rows, IsDownRow)|))
  }

  /** Every collected row is labelled 0 or 1, so the UP and DOWN counts add up
      to the sample count, and UP counts exactly the rows whose next-day
      change is positive. */
  lemma ReportCountsAddUp(coins: seq<CoinHistory>, rows: seq<TrainingRow>)
    requires Build(coins) == Ok(rows) && rows != []
    ensures DatasetReport(rows).Ok?
    ensures var rep := DatasetReport(rows).value;
            rep.upCount + rep.downCount == rep.totalSamples
            && rep.upCount == |Filter(rows, (r: TrainingRow) => r.changePercent > 0.0)|
  {
    DatasetRowsLabelled(coins, rows);
    FilterPartition(rows, IsUpRow, IsDownRow);
    FilterSameOnLabelled(rows);
  }

  lemma {:induction false} FilterSameOnLabelled(rows: seq<TrainingRow>)
    requires forall r :: r in rows ==> Labelled(r)
    ensures Filter(rows, IsUpRow) == Filter(rows, (r: TrainingRow) => r.changePercent > 0.0)
  {
    if rows != [] {
      assert rows[0] in rows;
      assert forall r :: r in rows[1..] ==> r in rows;
      FilterSameOnLabelled(rows[1..]);
    }
  }

  /** `prepare_classification_dataset`: collect the rows, then report the
      sample and label counts; `saved` is the data written to the CSV file,
      which nothing reaches when the task fails. */
  method PrepareClassificationDataset(coins: seq<CoinHistory>)
    returns (saved: seq<TrainingRow>, res: Result<Report, DatasetError>)
    ensures Build(coins).Err? ==> res == Err(Build(coins).error) && saved == []
    ensures Build(coins).Ok? ==> res == DatasetReport(Build(coins).value)
    ensures res.Ok? ==> saved == Build(coins).value
                        && res.value.upCount + res.value.downCount == res.value.totalSamples
    ensures res.Err? ==> saved == []
  {
    var collected := CollectDataset(coins);
    if collected.Err? {
      return [], Err(collected.error);
    }
    var rows := collected.value;
    res := DatasetReport(rows);
    if res.Err? {
      return [], res;
    }
    ReportCountsAddUp(coins, rows);
    saved := rows;
  }
}

=== FILE: features.dfy ===
/** The twelve-field feature vector shared by the training set and the live
    predictor: four price-window features, news deltas between the current
    and the previous window, spike flags and two price/sentiment
    interaction terms. */
module Features {
  import News

  /** The price-window features of one anchor. `volatility` is the population
      variance of the window (see README). */
  datatype PriceFeatures = PriceFeatures(
    trend: real,
    volatility: real,
    avgVolume: real,
    avgPrice: real)

  datatype FeatureVector = FeatureVector(
    priceTrend: real,
    volatility: real,
    avgVolume: real,
    avgPrice: real,
    newsVolumeChange: int,
    sentimentChange: real,
    positiveChange: int,
    negativeChange: int,
    negativeSpike: int,
    positiveSpike: int,
    alignment: real,
    divergence: int)

  const SpikeCountThreshold: int := 5
  const SpikeChangeThreshold: int := 3
  const DivergenceTrend: real := -1.0
  const DivergenceSentiment: real := 0.1

  /** A window summary as `News.Summarize` produces it. */
  predicate WellFormed(w: News.NewsWindow)
  {
    w.positive + w.negative <= w.scored <= w.count
  }

  /** The feature vector of an anchor from its price features and the
      summaries of its current and previous news windows. */
  function Assemble(p: PriceFeatures, cur: News.NewsWindow, prev: News.NewsWindow): (fv: FeatureVector)
    ensures fv.priceTrend == p.trend && fv.volatility == p.volatility
    ensures fv.avgVolume == p.avgVolume && fv.avgPrice == p.avgPrice
    ensures fv.alignment == p.trend * cur.meanSentiment
    ensures fv.newsVolumeChange == cur.count - prev.count
    ensures fv.sentimentChange == cur.meanSentiment - prev.meanSentiment
    ensures fv.positiveChange == cur.positive - prev.positive
    ensures fv.negativeChange == cur.negative - prev.negative
    ensures fv.negativeSpike in {0, 1} && fv.positiveSpike in {0, 1} && fv.divergence in {0, 1}
    ensures fv.negativeSpike == 1 <==> cur.negative > 5 && fv.negativeChange > 3
    ensures fv.positiveSpike == 1 <==> cur.positive > 5 && fv.positiveChange > 3
    ensures fv.divergence == 1 <==> p.trend < -1.0 && cur.meanSentiment > 0.1
  {
    var negativeChange := cur.negative - prev.negative;
    var positiveChange := cur.positive - prev.positive;
    FeatureVector(
      p.trend,
      p.volatility,
      p.avgVolume,
      p.avgPrice,
      cur.count - prev.count,
      cur.meanSentiment - prev.meanSentiment,
      positiveChange,
      negativeChange,
      if cur.negative > SpikeCountThreshold && negativeChange > SpikeChangeThreshold then 1 else 0,
      if cur.positive > SpikeCountThreshold && positiveChange > SpikeChangeThreshold then 1 else 0,
      p.trend * cur.meanSentiment,
      if p.trend < DivergenceTrend && cur.meanSentiment > DivergenceSentiment then 1 else 0)
  }

  /** A divergence (falling price, positive news) always shows up as a
      price/sentiment alignment below -0.1. */
  lemma DivergenceMeansNegativeAlignment(p: PriceFeatures, cur: News.NewsWindow, prev: News.NewsWindow)
    requires Assemble(p, cur, prev).divergence == 1
    ensures Assemble(p, cur, prev).alignment < -0.1
  {
    var t, s := p.trend, cur.meanSentiment;
    assert t < -1.0 && s > 0.1;
    assert t * s < -1.0 * s by {
      assert (t - -1.0) * s < 0.0;
    }
  }

  /** A spike needs at least six scored articles in the current window and a
      previous window at least four articles smaller in that class; both
      spikes at once need at least twelve current articles. */
  lemma SpikesNeedArticles(p: PriceFeatures, cur: News.NewsWindow, prev: News.NewsWindow)
    requires WellFormed(cur) && WellFormed(prev)
    ensures Assemble(p, cur, prev).negativeSpike == 1 ==> cur.count >= 6 && prev.negative <= cur.negative - 4
    ensures Assemble(p, cur, prev).positiveSpike == 1 ==> cur.count >= 6 && prev.positive <= cur.positive - 4
    ensures Assemble(p, cur, prev).negativeSpike == 1 && Assemble(p, cur, prev).positiveSpike == 1
            ==> cur.count >= 12
  {
  }

  // ---------------------------------------------------------------------
  // Feature columns

  datatype FeatureName =
    | PriceTrend7d | Volatility7d | AvgVolume7d | AvgPrice7d
    | NewsVolumeChange | SentimentChange | PositiveChange | NegativeChange
    | NegativeSpike | PositiveSpike | PriceSentimentAlignment | Divergence
  {
    /** The DataFrame column name. */
    function Column(): string
    {
      match this
      case PriceTrend7d => "price_trend_7d"
      case Volatility7d => "volatility_7d"
      case AvgVolume7d => "avg_volume_7d"
      case AvgPrice7d => "avg_price_7d"
      case NewsVolumeChange => "news_volume_change"
      case SentimentChange => "sentiment_change"
      case PositiveChange => "positive_change"
      case NegativeChange => "negative_change"
      case NegativeSpike => "negative_spike"
      case PositiveSpike => "positive_spike"
      case PriceSentimentAlignment => "price_sentiment_alignment"
      case Divergence => "divergence"
    }
  }

  /** The value of one named column, as the float the DataFrame holds. */
  function Get(fv: FeatureVector, name: FeatureName): real
  {
    match name
    case PriceTrend7d => fv.priceTrend
    case Volatility7d => fv.volatility
    case AvgVolume7d => fv.avgVolume
    case AvgPrice7d => fv.avgPrice
    case NewsVolumeChange => fv.newsVolumeChange as real
    case SentimentChange => fv.sentimentChange
    case PositiveChange => fv.positiveChange as real
    case NegativeChange => fv.negativeChange as real
    case NegativeSpike => fv.negativeSpike as real
    case PositiveSpike => fv.positiveSpike as real
    case PriceSentimentAlignment => fv.alignment
    case Divergence => fv.divergence as real
  }

  /** `features_df[feature_cols]`: the named columns, in the given order. */
  function Select(fv: FeatureVector, cols: seq<FeatureName>): (row: seq<real>)
    ensures |row| == |cols|
    ensures forall k :: 0 <= k < |cols| ==> row[k] == Get(fv, cols[k])
  {
    seq(|cols|, k requires 0 <= k < |cols| => Get(fv, cols[k]))
  }
}

=== FILE: history.dfy ===
/** The storing half of `collect_historical_prices`: one coin's daily
    series (prices, market caps, volumes as [timestamp in ms, value] pairs)
    is upserted into the daily-stat table keyed by (coin, date), each row
    carrying its percent change from the previous point. */
module History {
  import opened Common
  import opened PriceWindow
  import Tables

  /** One `[timestamp_ms, value]` pair of the market-chart response. */
  datatype Sample = Sample(timestampMs: int, value: real)

  /** The `defaults` of one stored CoinDailyStat. The market cap and the
      volume are BigIntegerField columns and hold whole numbers. */
  datatype StatRow = StatRow(price: real, marketCap: Option<int>, volume: Option<int>, changePercent: real)

  /** A CoinDailyStat row's unique key: (coin, date). */
  type Key = (int, int)

  type DailyStatTable = Tables.Table<Key, StatRow>

  const MillisPerDay: int := 1000 * SecondsPerDay

  /** `datetime.utcfromtimestamp(ms / 1000).date()`, as a day number. */
  function DayOfMs(ms: int): (d: int)
    ensures d * MillisPerDay <= ms < (d + 1) * MillisPerDay
  {
    ms / MillisPerDay
  }

  /** The change of point i from point i - 1, in percent. The first point is
      compared with itself, and a zero previous price gives 0; otherwise the
      previous price moved by the change is the current price. */
  function ChangePercent(prices: seq<Sample>, i: nat): (c: real)
    requires i < |prices|
    ensures i == 0 ==> c == 0.0
    ensures i > 0 && prices[i - 1].value == 0.0 ==> c == 0.0
    ensures i > 0 && prices[i - 1].value != 0.0 ==>
              prices[i - 1].value * (1.0 + c / 100.0) == prices[i].value
  {
    var price := prices[i].value;
    var prev := if i > 0 then prices[i - 1].value else price;
    if prev != 0.0 then
      PercentChangeInverse(prev, price);
      PercentChange(prev, price)
    else 0.0
  }

  /** `int(x)` on a float, which a BigIntegerField applies to the value it
      saves: the whole part of x, cut toward zero. */
  function TruncateTowardZero(x: real): (n: int)
    ensures 0.0 <= x ==> 0 <= n && n as real <= x < n as real + 1.0
    ensures x < 0.0 ==> n <= 0 && n as real - 1.0 < x <= n as real
  {
    if x >= 0.0 then x.Floor else -((-x).Floor)
  }

  /** A whole number is saved unchanged, and a fractional one loses its
      fraction: the saved value is within one of the sample, on the side of
      zero. */
  lemma TruncateKeepsWholeNumbers(x: real, k: int)
    ensures TruncateTowardZero(k as real) == k
    ensures -1.0 < x - TruncateTowardZero(x) as real < 1.0
    ensures TruncateTowardZero(x) as real == x <==> x == x.Floor as real
  {
    assert (k as real).Floor == k;
    assert (-(k as real)).Floor == -k;
    if x < 0.0 {
      var f := (-x).Floor;
      if x == x.Floor as real {
        assert -x == (-x.Floor) as real;
        assert f == -x.Floor;
      }
      if TruncateTowardZero(x) as real == x {
        assert x == (-f) as real;
        assert x.Floor == -f;
      }
    }
  }

  /** The row stored for point i: a market cap or volume list shorter than
      the price list gives None, and a present value is saved as its whole
      part. */
  function StatFor(prices: seq<Sample>, caps: seq<Sample>, volumes: seq<Sample>, i: nat): (r: StatRow)
    requires i < |prices|
    ensures r.price == prices[i].value
    ensures r.marketCap.Some? <==> i < |caps|
    ensures r.volume.Some? <==> i < |volumes|
    ensures r.changePercent == ChangePercent(prices, i)
    ensures i < |caps| ==> -1.0 < caps[i].value - r.marketCap.value as real < 1.0
    ensures i < |volumes| ==> -1.0 < volumes[i].value - r.volume.value as real < 1.0
    ensures i < |caps| && caps[i].value >= 0.0 ==> r.marketCap.value as real <= caps[i].value
    ensures i < |volumes| && volumes[i].value >= 0.0 ==> r.volume.value as real <= volumes[i].value
  {
    StatRow(
      prices[i].value,
      if i < |caps| then Some(TruncateTowardZero(caps[i].value)) else None,
      if i < |volumes| then Some(TruncateTowardZero(volumes[i].value)) else None,
      ChangePercent(prices, i))
  }

  /** The upserts of one coin's series, one per price point, in order. */
  function Upserts(coin: int, prices: seq<Sample>, caps: seq<Sample>, volumes: seq<Sample>): (u: seq<(Key, StatRow)>)
    ensures |u| == |prices|
    ensures forall i :: 0 <= i < |u| ==> u[i].0 == (coin, DayOfMs(prices[i].timestampMs))
  {
    seq(|prices|, i requires 0 <= i < |prices| =>
          ((coin, DayOfMs(prices[i].timestampMs)), StatFor(prices, caps, volumes, i)))
  }

  /** The storing loop for one coin; returns the number of points loaded. */
  method StoreHistoricalPrices(table: DailyStatTable, coin: int, prices: seq<Sample>, caps: seq<Sample>, volumes: seq<Sample>)
    returns (loaded: nat)
    modifies table
    ensures loaded == |prices|
    ensures table.rows == Tables.ApplyAll(old(table.rows), Upserts(coin, prices, caps, volumes))
  {
    ghost var rows0 := table.rows;
    ghost var u := Upserts(coin, prices, caps, volumes);
    var i := 0;
    while i < |prices|
      invariant 0 <= i <= |prices|
      invariant table.rows == Tables.ApplyAll(rows0, u[..i])
    {
      var _ := table.UpdateOrCreate((coin, DayOfMs(prices[i].timestampMs)), StatFor(prices, caps, volumes, i));
      assert u[..i + 1][..i] == u[..i];
      i := i + 1;
    }
    assert u[..i] == u;
    return |prices|;
  }

  /** With one point per day (strictly increasing days), every point's own
      row is stored under its day, and the table grows by the number of days
      it did not hold yet. */
  lemma DailySeriesStoredExactly(rows: map<Key, StatRow>, coin: int, prices: seq<Sample>, caps: seq<Sample>, volumes: seq<Sample>)
    requires forall i, j :: 0 <= i < j < |prices| ==> DayOfMs(prices[i].timestampMs) < DayOfMs(prices[j].timestampMs)
    ensures var after := Tables.ApplyAll(rows, Upserts(coin, prices, caps, volumes));
            (forall i :: 0 <= i < |prices| ==>
               (coin, DayOfMs(prices[i].timestampMs)) in after
               && after[(coin, DayOfMs(prices[i].timestampMs))] == StatFor(prices, caps, volumes, i))
            && |after| == |rows| + Tables.CountNew(rows, Upserts(coin, prices, caps, volumes))
  {
    var u := Upserts(coin, prices, caps, volumes);
    forall i | 0 <= i < |prices|
      ensures (coin, DayOfMs(prices[i].timestampMs)) in Tables.ApplyAll(rows, u)
      ensures Tables.ApplyAll(rows, u)[(coin, DayOfMs(prices[i].timestampMs))] == StatFor(prices, caps, volumes, i)
    {
      Tables.ApplyAllLastWins(rows, u, i);
    }
    Tables.CountNewIsGrowth(rows, u);
  }

  /** Two points on the same day leave one row, holding the later point. */
  lemma SameDayLaterPointWins(rows: map<Key, StatRow>, coin: int, prices: seq<Sample>, caps: seq<Sample>, volumes: seq<Sample>)
    requires |prices| == 2 && DayOfMs(prices[0].timestampMs) == DayOfMs(prices[1].timestampMs)
    ensures var after := Tables.ApplyAll(rows, Upserts(coin, prices, caps, volumes));
            var k := (coin, DayOfMs(prices[0].timestampMs));
            k in after && after[k] == StatFor(prices, caps, volumes, 1)
            && |after| <= |rows| + 1
  {
    var u := Upserts(coin, prices, caps, volumes);
    Tables.ApplyAllLastWins(rows, u, 1);
    Tables.CountNewIsGrowth(rows, u);
    assert u[..1][..0] == [];
  }

  /** In any series, the row of a day holds the last point of that day:
      every earlier point of the same day is overwritten by it. */
  lemma LastPointOfDayWins(rows: map<Key, StatRow>, coin: int, prices: seq<Sample>, caps: seq<Sample>, volumes: seq<Sample>, i: nat)
    requires i < |prices|
    requires forall j :: i < j < |prices| ==> DayOfMs(prices[j].timestampMs) != DayOfMs(prices[i].timestampMs)
    ensures var after := Tables.ApplyAll(rows, Upserts(coin, prices, caps, volumes));
            var k := (coin, DayOfMs(prices[i].timestampMs));
            k in after && after[k] == StatFor(prices, caps, volumes, i)
  {
    Tables.ApplyAllLastWins(rows, Upserts(coin, prices, caps, volumes), i);
  }

  /** Storing one coin's series leaves every other coin's rows unchanged. */
  lemma OtherCoinsUntouched(rows: map<Key, StatRow>, coin: int, prices: seq<Sample>, caps: seq<Sample>, volumes: seq<Sample>, k: Key)
    requires k in rows && k.0 != coin
    ensures var after := Tables.ApplyAll(rows, Upserts(coin, prices, caps, volumes));
            k in after && after[k] == rows[k]
  {
    var u := Upserts(coin, prices, caps, volumes);
    assert k !in Tables.KeySet(u);
    Tables.ApplyAllOutside(rows, u, k);
  }
}

=== FILE: interval_cover.dfy ===
/** `min_cover_intervals`: sort the intervals by start in place, then
    greedily extend the covered prefix 1..covered_end with the interval that
    reaches furthest among those starting at most one past it. The answer is
    "No" when some position of 1..N cannot be covered, and otherwise "Yes"
    followed by the smallest number of intervals covering 1..N. */
module IntervalCover {
  import opened Common

  /** A closed interval [start, end] of integer positions. */
  datatype Interval = Interval(start: int, end: int)

  predicate SortedByStart(ivs: seq<Interval>)
  {
    forall p, q :: 0 <= p < q < |ivs| ==> ivs[p].start <= ivs[q].start
  }

  /** Some interval of `pool` contains position x. */
  predicate CoveredBy(pool: multiset<Interval>, x: int)
  {
    exists iv :: iv in pool && iv.start <= x <= iv.end
  }

  /** Every position lo..hi is contained in an interval of `pool`. */
  predicate Covers(pool: multiset<Interval>, lo: int, hi: int)
  {
    forall x :: lo <= x <= hi ==> CoveredBy(pool, x)
  }

  /** `chosen` is drawn from `pool` and covers 1..n. */
  predicate IsCover(pool: multiset<Interval>, chosen: multiset<Interval>, n: int)
  {
    chosen <= pool && Covers(chosen, 1, n)
  }

  /** k intervals of `pool` cover 1..n, and no fewer do. */
  ghost predicate IsMinimumCover(pool: multiset<Interval>, n: int, k: nat)
  {
    (exists chosen :: IsCover(pool, chosen, n) && |chosen| == k)
    && (forall chosen :: IsCover(pool, chosen, n) ==> |chosen| >= k)
  }

  // ---------------------------------------------------------------------
  // The furthest reach, and the greedy sequence of covered prefixes

  function MaxInt(a: int, b: int): int
  {
    if a >= b then a else b
  }

  /** The furthest end among intervals starting at most c + 1, or c itself
      when none ends beyond it: one round of the inner loop's `best_end`. */
  function Reach(ivs: seq<Interval>, c: int): (r: int)
    ensures r >= c
    ensures forall i :: 0 <= i < |ivs| && ivs[i].start <= c + 1 ==> ivs[i].end <= r
  {
    if ivs == [] then c
    else
      var last := ivs[|ivs| - 1];
      var rest := Reach(ivs[..|ivs| - 1], c);
      if last.start <= c + 1 then MaxInt(rest, last.end) else rest
  }

  /** The reach is c itself or the end of an eligible interval. */
  lemma {:induction false} ReachAttained(ivs: seq<Interval>, c: int)
    ensures Reach(ivs, c) == c
         || exists i :: 0 <= i < |ivs| && ivs[i].start <= c + 1 && ivs[i].end == Reach(ivs, c)
  {
    if ivs != [] {
      var prefix := ivs[..|ivs| - 1];
      ReachAttained(prefix, c);
      if Reach(ivs, c) != Reach(prefix, c) && Reach(ivs, c) != c {
        assert ivs[|ivs| - 1].end == Reach(ivs, c);
      } else if Reach(ivs, c) != c {
        var i :| 0 <= i < |prefix| && prefix[i].start <= c + 1 && prefix[i].end == Reach(prefix, c);
        assert ivs[i] == prefix[i];
      }
    }
  }

  /** Any interval of the pool that starts within 1..c + 1 is within reach. */
  lemma ReachCoversMember(ivs: seq<Interval>, c: int, t: Interval)
    requires t in multiset(ivs) && t.start <= c + 1
    ensures Reach(ivs, c) >= t.end
  {
    var i :| 0 <= i < |ivs| && ivs[i] == t;
  }

  /** The covered prefix after j greedy rounds, starting from 0. */
  function Covered(ivs: seq<Interval>, j: nat): (c: int)
    ensures c >= 0
  {
    if j == 0 then 0 else Reach(ivs, Covered(ivs, j - 1))
  }

  lemma {:induction false} CoveredMonotone(ivs: seq<Interval>, j: nat, k: nat)
    requires j <= k
    ensures Covered(ivs, j) <= Covered(ivs, k)
  {
    if j < k {
      CoveredMonotone(ivs, j, k - 1);
    }
  }

  /** Taking out an interval t that starts within 1..hi + 1 leaves the
      positions before t still covered, with one interval fewer. */
  lemma CoverShrinks(chosen: multiset<Interval>, t: Interval, hi: int)
    requires t in chosen && Covers(chosen, 1, hi) && t.start <= hi + 1
    ensures Covers(chosen - multiset{t}, 1, MaxInt(0, t.start - 1))
    ensures |chosen - multiset{t}| == |chosen| - 1
  {
    var rest := chosen - multiset{t};
    forall x | 1 <= x <= MaxInt(0, t.start - 1)
      ensures CoveredBy(rest, x)
    {
      assert CoveredBy(chosen, x);
      var iv :| iv in chosen && iv.start <= x <= iv.end;
      assert iv != t;
      assert iv in rest;
    }
    assert chosen == rest + multiset{t};
  }

  /** The greedy bound: m intervals taken from `ivs` that cover 1..hi never
      reach further than m greedy rounds do. */
  lemma {:induction false} GreedyReachesFurthest(ivs: seq<Interval>, chosen: multiset<Interval>, hi: int)
    requires chosen <= multiset(ivs)
    requires Covers(chosen, 1, hi)
    ensures Covered(ivs, |chosen|) >= hi
    decreases |chosen|
  {
    if hi >= 1 {
      assert CoveredBy(chosen, hi);
      var t :| t in chosen && t.start <= hi <= t.end;
      var rest := chosen - multiset{t};
      CoverShrinks(chosen, t, hi);
      assert rest <= chosen;
      GreedyReachesFurthest(ivs, rest, MaxInt(0, t.start - 1));
      var c0 := Covered(ivs, |rest|);
      assert t in multiset(ivs) && t.start <= c0 + 1;
      ReachCoversMember(ivs, c0, t);
      assert Covered(ivs, |chosen|) == Reach(ivs, c0);
    }
  }

  // ---------------------------------------------------------------------
  // The algorithm

  /** The first i intervals of the array are in start order. */
  predicate SortedPrefix(a: array<Interval>, i: int)
    reads a
  {
    forall p, q :: 0 <= p < q < i && q < a.Length ==> a[p].start <= a[q].start
  }

  /** Swaps two neighbours; the array keeps its elements. */
  method SwapWithPrevious(a: array<Interval>, j: int)
    requires 0 < j < a.Length
    modifies a
    ensures a[..] == old(a[..])[j - 1 := old(a[j])][j := old(a[j - 1])]
    ensures multiset(a[..]) == old(multiset(a[..]))
  {
    a[j - 1], a[j] := a[j], a[j - 1];
  }

  /** The inner loop of the insertion sort: moves a[i] down past every
      element starting after it. */
  method InsertAt(a: array<Interval>, i: int)
    requires 0 <= i < a.Length && SortedPrefix(a, i)
    modifies a
    ensures SortedPrefix(a, i + 1)
    ensures a[i + 1..] == old(a[i + 1..])
    ensures multiset(a[..]) == old(multiset(a[..]))
  {
    var j := i;
    while j > 0 && a[j - 1].start > a[j].start
      invariant 0 <= j <= i
      invariant forall p, q :: 0 <= p < q <= i && p != j && q != j ==> a[p].start <= a[q].start
      invariant forall q :: j < q <= i ==> a[j].start <= a[q].start
      invariant a[i + 1..] == old(a[i + 1..])
      invariant multiset(a[..]) == old(multiset(a[..]))
    {
      SwapWithPrevious(a, j);
      j := j - 1;
    }
    forall p, q | 0 <= p < q <= i
      ensures a[p].start <= a[q].start
    {
      if q == j && p < j - 1 {
        assert a[p].start <= a[j - 1].start;
      }
    }
  }

  /** `intervals.sort(key=lambda x: x[0])`, as an insertion sort. */
  method SortByStart(a: array<Interval>)
    modifies a
    ensures SortedByStart(a[..])
    ensures multiset(a[..]) == old(multiset(a[..]))
  {
    var i := 0;
    while i < a.Length
      invariant 0 <= i <= a.Length
      invariant SortedPrefix(a, i)
      invariant multiset(a[..]) == old(multiset(a[..]))
    {
      InsertAt(a, i);
      i := i + 1;
    }
  }

  datatype Answer = No | Yes(count: nat)

  /** The returned text. */
  function Render(ans: Answer): (s: string)
  {
    match ans
    case No => "No"
    case Yes(k) => "Yes\n" + NatToString(k)
  }

  /** The count an answer text carries. */
  predicate IsYes(s: string)
  {
    |s| >= 5 && s[..4] == "Yes\n" && AllDigits(s[4..])
  }

  function YesCount(s: string): nat
    requires IsYes(s)
  {
    ParseNat(s[4..])
  }

  /** Reading the text back gives the answer. */
  lemma RenderReadsBack(ans: Answer)
    ensures Render(ans) == "No" <==> ans.No?
    ensures ans.Yes? ==> IsYes(Render(ans)) && YesCount(Render(ans)) == ans.count
  {
    if ans.Yes? {
      var s := Render(ans);
      assert s[4..] == NatToString(ans.count);
      assert s[..4] == "Yes\n";
      ParseNatToString(ans.count);
    }
  }

  /** One round's `best_end` is the furthest reach: an upper bound of the
      eligible ends, attained by one of them or equal to c, where the
      eligible intervals are exactly the first k. */
  lemma ReachIs(ivs: seq<Interval>, c: int, k: int, v: int)
    requires 0 <= k <= |ivs|
    requires forall i :: 0 <= i < k ==> ivs[i].start <= c + 1 && ivs[i].end <= v
    requires forall i :: k <= i < |ivs| ==> ivs[i].start > c + 1
    requires v >= c && (v == c || exists i :: 0 <= i < k && ivs[i].end == v)
    ensures Reach(ivs, c) == v
  {
    ReachAttained(ivs, c);
  }

  /** When no eligible interval ends beyond c < n, position c + 1 is not
      covered by any interval at all. */
  lemma StuckMeansUncoverable(ivs: seq<Interval>, c: int, n: int)
    requires 0 <= c < n && Reach(ivs, c) == c
    ensures !Covers(multiset(ivs), 1, n)
  {
    assert !CoveredBy(multiset(ivs), c + 1);
  }

  /** An interval starting within 1..c + 1 extends a cover of 1..c to its end. */
  lemma ExtendCover(chosen: multiset<Interval>, t: Interval, c: int)
    requires Covers(chosen, 1, c) && t.start <= c + 1
    ensures Covers(chosen + multiset{t}, 1, t.end)
  {
    forall x | 1 <= x <= t.end
      ensures CoveredBy(chosen + multiset{t}, x)
    {
      if x <= c {
        assert CoveredBy(chosen, x);
        var iv :| iv in chosen && iv.start <= x <= iv.end;
        assert iv in chosen + multiset{t};
      } else {
        assert t in chosen + multiset{t};
      }
    }
  }

  lemma ChosenFromScanned(s: seq<Interval>, chosen: multiset<Interval>, first: int, best: int, last: int)
    requires 0 <= first <= best < last <= |s|
    requires chosen <= multiset(s[..first])
    ensures chosen + multiset{s[best]} <= multiset(s[..last])
  {
    assert s[..last] == s[..first] + s[first..last];
    assert s[best] == s[first..last][best - first];
  }

  /** More intervals cover at least as much. */
  lemma CoversMonotone(small: multiset<Interval>, big: multiset<Interval>, lo: int, hi: int)
    requires small <= big && Covers(small, lo, hi)
    ensures Covers(big, lo, hi)
  {
    forall x | lo <= x <= hi
      ensures CoveredBy(big, x)
    {
      assert CoveredBy(small, x);
      var iv :| iv in small && iv.start <= x <= iv.end;
      assert iv in big;
    }
  }

  /** If count greedy rounds reach n and count - 1 do not, every cover of
      1..n has at least count intervals. */
  lemma GreedyIsOptimal(ivs: seq<Interval>, n: int, count: nat, other: multiset<Interval>)
    requires count == 0 || Covered(ivs, count - 1) < n
    requires IsCover(multiset(ivs), other, n)
    ensures |other| >= count
  {
    GreedyReachesFurthest(ivs, other, n);
    if |other| < count {
      CoveredMonotone(ivs, |other|, count - 1);
    }
  }

  /** What the greedy loop holds when it stops with 1..n covered: the chosen
      intervals are a minimum cover. */
  lemma GreedyAnswerIsMinimum(ivs: seq<Interval>, idx: int, chosen: multiset<Interval>, n: int, count: nat)
    requires GreedyDone(ivs, n, idx, count, chosen)
    ensures Covers(multiset(ivs), 1, n)
    ensures IsMinimumCover(multiset(ivs), n, count)
  {
    assert ivs == ivs[..idx] + ivs[idx..];
    assert IsCover(multiset(ivs), chosen, n);
    CoversMonotone(chosen, multiset(ivs), 1, n);
    forall other | IsCover(multiset(ivs), other, n)
      ensures |other| >= count
    {
      GreedyIsOptimal(ivs, n, count, other);
    }
  }

  /** The first k intervals all start by c + 1 and end by e. */
  ghost predicate Scanned(ivs: seq<Interval>, k: int, c: int, e: int)
  {
    0 <= k <= |ivs| && forall i :: 0 <= i < k ==> ivs[i].start <= c + 1 && ivs[i].end <= e
  }

  /** One round of the inner loop: scan on from `start` over the intervals
      starting at most c + 1, keeping the furthest end. */
  method ScanRound(a: array<Interval>, c: int, start: int) returns (bestEnd: int, idx: int, ghost best: int)
    requires SortedByStart(a[..]) && 0 <= start <= a.Length
    requires Scanned(a[..], start, c, c)
    ensures start <= idx <= a.Length
    ensures Scanned(a[..], idx, c, bestEnd)
    ensures bestEnd == Reach(a[..], c)
    ensures bestEnd == c || (start <= best < idx && a[best].end == bestEnd)
  {
    bestEnd := c;
    best := -1;
    idx := start;
    while idx < a.Length && a[idx].start <= c + 1
      invariant start <= idx <= a.Length
      invariant forall i :: 0 <= i < idx ==> a[i].start <= c + 1 && a[i].end <= bestEnd
      invariant bestEnd >= c
      invariant bestEnd == c || (start <= best < idx && a[best].end == bestEnd)
    {
      if a[idx].end > bestEnd {
        best := idx;
      }
      bestEnd := MaxInt(bestEnd, a[idx].end);
      idx := idx + 1;
    }
    if idx < a.Length {
      assert forall i :: idx <= i < a.Length ==> a[idx].start <= a[i].start;
    }
    ReachIs(a[..], c, idx, bestEnd);
  }

  /** The state the greedy loop keeps after `count` rounds: `c` is how far
      the rounds reach, the first `idx` intervals are used up, and `chosen`
      holds the picked intervals, which cover 1..c. */
  ghost predicate GreedyInv(ivs: seq<Interval>, n: int, idx: int, c: int, count: nat, chosen: multiset<Interval>)
  {
    && Scanned(ivs, idx, c, c)
    && c == Covered(ivs, count)
    && (count == 0 || Covered(ivs, count - 1) < n)
    && chosen <= multiset(ivs[..idx]) && |chosen| == count
    && Covers(chosen, 1, c)
  }

  /** A round that reaches past c keeps the loop's state. */
  lemma GreedyStep(ivs: seq<Interval>, n: int, idx: int, c: int, count: nat, chosen: multiset<Interval>,
                   bestEnd: int, next: int, best: int)
    requires GreedyInv(ivs, n, idx, c, count, chosen) && c < n
    requires idx <= next && Scanned(ivs, next, c, bestEnd)
    requires bestEnd == Reach(ivs, c) && idx <= best < next && ivs[best].end == bestEnd
    ensures GreedyInv(ivs, n, next, bestEnd, count + 1, chosen + multiset{ivs[best]})
  {
    ChosenFromScanned(ivs, chosen, idx, best, next);
    ExtendCover(chosen, ivs[best], c);
  }

  /** What the greedy loop holds when it stops with 1..n covered. */
  ghost predicate GreedyDone(ivs: seq<Interval>, n: int, idx: int, count: nat, chosen: multiset<Interval>)
  {
    && 0 <= idx <= |ivs| && chosen <= multiset(ivs[..idx]) && |chosen| == count
    && Covers(chosen, 1, n)
    && (count == 0 || Covered(ivs, count - 1) < n)
  }

  /** One round of the greedy loop: either it reaches past c, keeping the
      loop's state, or it is stuck and 1..n cannot be covered. */
  method GreedyRound(a: array<Interval>, ghost ivs: seq<Interval>, n: int, i: int, c: int, count: nat, ghost chosen: multiset<Interval>)
    returns (stuck: bool, next: int, reach: int, ghost chosen': multiset<Interval>)
    requires ivs == a[..] && SortedByStart(ivs)
    requires GreedyInv(ivs, n, i, c, count, chosen) && c < n
    ensures stuck ==> !Covers(multiset(ivs), 1, n)
    ensures !stuck ==> c < reach && GreedyInv(ivs, n, next, reach, count + 1, chosen')
  {
    ghost var best;
    reach, next, best := ScanRound(a, c, i);
    if reach == c {
      StuckMeansUncoverable(ivs, c, n);
      return true, next, reach, chosen;
    }
    GreedyStep(ivs, n, i, c, count, chosen, reach, next, best);
    return false, next, reach, chosen + multiset{ivs[best]};
  }

  /** The rounds of the greedy loop of `min_cover_intervals` on a sorted array: either a
      round gets stuck below n, or the rounds reach n with `count` intervals
      picked from the array, the last but one round still short of n. */
  method GreedyRounds(n: int, a: array<Interval>) returns (stuck: bool, count: nat, ghost idx: int, ghost chosen: multiset<Interval>)
    requires SortedByStart(a[..])
    ensures stuck ==> !Covers(multiset(a[..]), 1, n)
    ensures !stuck ==> GreedyDone(a[..], n, idx, count, chosen)
    ensures n <= 0 ==> !stuck && count == 0
  {
    ghost var ivs := a[..];
    var coveredEnd := 0;
    var i := 0;
    count := 0;
    chosen := multiset{};
    while coveredEnd < n
      invariant GreedyInv(ivs, n, i, coveredEnd, count, chosen)
      decreases n - coveredEnd
    {
      var roundStuck, next, reach;
      roundStuck, next, reach, chosen := GreedyRound(a, ivs, n, i, coveredEnd, count, chosen);
      if roundStuck {
        return true, count, i, chosen;
      }
      coveredEnd, count, i := reach, count + 1, next;
    }
    return false, count, i, chosen;
  }

  /** The greedy loops of `min_cover_intervals` on a sorted array. */
  method Greedy(n: int, a: array<Interval>) returns (ans: Answer)
    requires SortedByStart(a[..])
    ensures ans.No? <==> !Covers(multiset(a[..]), 1, n)
    ensures ans.Yes? ==> IsMinimumCover(multiset(a[..]), n, ans.count)
    ensures n <= 0 ==> ans == Yes(0)
  {
    var stuck: bool;
    var count: nat;
    ghost var idx: int;
    ghost var chosen: multiset<Interval>;
    stuck, count, idx, chosen := GreedyRounds(n, a);
    if stuck {
      return No;
    }
    GreedyAnswerIsMinimum(a[..], idx, chosen, n, count);
    return Yes(count);
  }

  /** `min_cover_intervals(N, intervals)`: the list is left sorted by start,
      and the text is "No" exactly when 1..N cannot be covered; otherwise it
      is "Yes" and the minimum number of intervals covering 1..N. */
  method MinCoverIntervals(n: int, a: array<Interval>) returns (result: string)
    modifies a
    ensures SortedByStart(a[..]) && multiset(a[..]) == old(multiset(a[..]))
    ensures result == "No" <==> !Covers(old(multiset(a[..])), 1, n)
    ensures result != "No" ==> IsYes(result) && IsMinimumCover(old(multiset(a[..])), n, YesCount(result))
    ensures n <= 0 ==> result == "Yes\n0"
  {
    SortByStart(a);
    var ans := Greedy(n, a);
    RenderReadsBack(ans);
    result := Render(ans);
  }
}

=== FILE: live_features.dfy ===
/** `compute_features_for_coin`: the feature vector of a coin "now", from
    its newest seven daily stats dated at most seven days before today and
    the two timestamp-based news windows. */
module LiveFeatures {
  import opened Common
  import opened PriceWindow
  import News
  import Features
  import opened Dataset

  /** None when fewer than seven rows are found (`Insufficient`); a zero
      oldest price raises ZeroDivisionError, which the prediction loop catches
      (`Failed`). */
  datatype LiveOutcome = Insufficient | Failed | Ready(features: Features.FeatureVector)

  /** Days back from today that the price query reaches (`date__gte`). */
  const LookbackDays: int := 7

  predicate IsRecent(now: int, s: DailyStat)
  {
    s.date >= DateOf(now) - LookbackDays
  }

  /** The query's rows newest first: the stats dated on or after
      today - 7, in descending date order, of which `[:7]` keeps seven. */
  function RecentNewestFirst(stats: seq<DailyStat>, now: int): seq<DailyStat>
  {
    Reverse(Filter(stats, s => IsRecent(now, s)))
  }

  function LiveRows(stats: seq<DailyStat>, now: int): (rows: seq<DailyStat>)
    ensures |rows| <= WindowSize
  {
    var recent := RecentNewestFirst(stats, now);
    if |recent| >= WindowSize then recent[..WindowSize] else recent
  }

  /** Price features of a newest-first window: the trend compares the first
      (newest) price with the last (oldest) one. */
  function PriceFeaturesNewestFirst(rows: seq<DailyStat>): Features.PriceFeatures
    requires |rows| > 0 && rows[|rows| - 1].price != 0.0
  {
    var p := Prices(rows);
    Features.PriceFeatures(TrendNewestFirst(p), Variance(p), Mean(Volumes(rows)), Mean(p))
  }

  function ComputeFeaturesForCoin(c: CoinHistory, now: int): (o: LiveOutcome)
    ensures o.Insufficient? <==> |Filter(c.stats, s => IsRecent(now, s))| < WindowSize
  {
    var rows := LiveRows(c.stats, now);
    if |rows| < WindowSize then Insufficient
    else if rows[WindowSize - 1].price == 0.0 then Failed
    else
      var cur := News.Summarize(News.LiveCurrent(c.articles, now));
      var prev := News.Summarize(News.LivePrevious(c.articles, now));
      Ready(Features.Assemble(PriceFeaturesNewestFirst(rows), cur, prev))
  }

  lemma {:induction false} PricesReverse(rows: seq<DailyStat>)
    ensures Prices(Reverse(rows)) == Reverse(Prices(rows))
    ensures Volumes(Reverse(rows)) == Reverse(Volumes(rows))
  {
    forall k | 0 <= k < |rows|
      ensures Prices(Reverse(rows))[k] == Reverse(Prices(rows))[k]
      ensures Volumes(Reverse(rows))[k] == Reverse(Volumes(rows))[k]
    {
      ReverseAt(rows, k);
      ReverseAt(Prices(rows), k);
      ReverseAt(Volumes(rows), k);
    }
  }

  /** When a coin's last seven stats are all recent, the live query returns
      exactly those seven rows, newest first. */
  lemma LiveRowsAreLastSeven(stats: seq<DailyStat>, now: int)
    requires |stats| >= WindowSize
    requires forall k :: |stats| - WindowSize <= k < |stats| ==> IsRecent(now, stats[k])
    ensures LiveRows(stats, now) == Reverse(stats[|stats| - WindowSize..])
  {
    var n := |stats|;
    var older, last := stats[..n - WindowSize], stats[n - WindowSize..];
    var keep := (s: DailyStat) => IsRecent(now, s);
    assert stats == older + last;
    FilterAppend(older, last, keep);
    FilterAll(last, keep);
    ReverseAppend(Filter(older, keep), last);
    assert RecentNewestFirst(stats, now) == Reverse(last) + Reverse(Filter(older, keep));
  }

  /** With the stats in date order, as the (coin, date) key keeps them,
      the query's rows come out in strictly descending date order, as
      `order_by('-date')` returns them. */
  lemma RecentRowsNewestFirst(stats: seq<DailyStat>, now: int)
    requires Chronological(stats)
    ensures var r := RecentNewestFirst(stats, now);
            forall i, j :: 0 <= i < j < |r| ==> r[i].date > r[j].date
  {
    var keep := (s: DailyStat) => IsRecent(now, s);
    var before := (x: DailyStat, y: DailyStat) => x.date < y.date;
    var f := Filter(stats, keep);
    assert OrderedBy(stats, before);
    FilterKeepsOrder(stats, keep, before);
    var r := Reverse(f);
    assert r == RecentNewestFirst(stats, now);
    forall i, j | 0 <= i < j < |r|
      ensures r[i].date > r[j].date
    {
      ReverseAt(f, i);
      ReverseAt(f, j);
      assert before(f[|f| - 1 - j], f[|f| - 1 - i]);
    }
  }

  /** Training/serving agreement on prices: when the last seven stats are
      recent, the live price features, computed newest first with the
      mirrored trend formula, equal the training set's formulas on the same
      seven rows oldest first. These seven rows are the window of the last
      anchor, len - 1, which the training loop never reaches: it stops at
      len - 2, whose label needs the following day. */
  lemma LivePriceFeaturesMatchDataset(c: CoinHistory, now: int)
    requires |c.stats| >= WindowSize
    requires forall k :: |c.stats| - WindowSize <= k < |c.stats| ==> IsRecent(now, c.stats[k])
    ensures var w := c.stats[|c.stats| - WindowSize..];
            match ComputeFeaturesForCoin(c, now)
            case Insufficient => false
            case Failed => w[0].price == 0.0
            case Ready(fv) =>
              w[0].price != 0.0
              && fv.priceTrend == TrendOldestFirst(Prices(w))
              && fv.avgPrice == Mean(Prices(w))
              && fv.volatility == Variance(Prices(w))
              && fv.avgVolume == Mean(Volumes(w))
  {
    var w := c.stats[|c.stats| - WindowSize..];
    LiveRowsAreLastSeven(c.stats, now);
    var rows := LiveRows(c.stats, now);
    PricesReverse(w);
    ReverseAt(w, WindowSize - 1);
    assert rows[WindowSize - 1] == w[0];
    if w[0].price != 0.0 {
      TrendMirror(Prices(w));
      MeanReverse(Prices(w));
      MeanReverse(Volumes(w));
      VarianceReverse(Prices(w));
    }
  }

  /** The live current window has no upper bound: an article published after
      `now` still counts, while the training windows of every anchor dated
      before today never see it. */
  lemma FutureArticleCountsLive(now: int, a: News.Article, d: int)
    requires a.publishedAt > now && d < DateOf(now)
    ensures News.InLiveCurrent(now, a)
    ensures !News.InDatasetCurrent(d, a) && !News.InDatasetPrevious(d, a)
  {
  }
}

=== FILE: models.dfy ===
/** Derived properties of the stored records: the signal-strength bucket of a
    direction prediction, and the display names and "new user" flag of a bot
    user. All of them are pure if/elif chains over the record's fields. */
module Models {
  import opened Common

  // ---------------------------------------------------------------------
  // DirectionPrediction.signal_strength

  datatype SignalStrength = Weak | Moderate | Strong
  {
    /** The label the JSON views and the bot show. */
    function Label(): string
    {
      match this
      case Weak => "weak"
      case Moderate => "moderate"
      case Strong => "strong"
    }

    /** Position in the order weak < moderate < strong. */
    function Rank(): nat
    {
      match this
      case Weak => 0
      case Moderate => 1
      case Strong => 2
    }
  }

  const StrongThreshold: real := 0.7
  const ModerateThreshold: real := 0.6

  /** Bucket of a confidence score: each score falls in exactly one of the
      three half-open ranges [0.7, inf), [0.6, 0.7) and (-inf, 0.6). */
  function SignalStrengthOf(confidence: real): (s: SignalStrength)
    ensures s == Strong <==> confidence >= 0.7
    ensures s == Moderate <==> 0.6 <= confidence < 0.7
    ensures s == Weak <==> confidence < 0.6
  {
    if confidence >= StrongThreshold then Strong
    else if confidence >= ModerateThreshold then Moderate
    else Weak
  }

  /** Raising the confidence never moves a prediction to a weaker bucket. */
  lemma SignalStrengthMonotone(c1: real, c2: real)
    requires c1 <= c2
    ensures SignalStrengthOf(c1).Rank() <= SignalStrengthOf(c2).Rank()
  {
  }

  // ---------------------------------------------------------------------
  // BotUser

  /** The fields of a bot user that its display properties read. The
      optional strings are nullable CharFields; `createdAt` is the
      registration timestamp in seconds. */
  datatype BotUser = BotUser(
    telegramId: int,
    username: Option<string>,
    firstName: Option<string>,
    lastName: Option<string>,
    createdAt: int)

  function IdString(u: BotUser): string
  {
    IntToString(u.telegramId)
  }

  /** `BotUser.__str__`: "@username (id)", else "first_name (id)", else "User id". */
  function DisplayString(u: BotUser): (r: string)
    ensures |r| > |IdString(u)|
    ensures Truthy(u.username) ==> r[0] == '@'
    ensures Truthy(u.username) ==> r == "@" + u.username.value + " (" + IdString(u) + ")"
    ensures !Truthy(u.username) && Truthy(u.firstName) ==> r == u.firstName.value + " (" + IdString(u) + ")"
    ensures !Truthy(u.username) && !Truthy(u.firstName) ==> r == "User " + IdString(u)
  {
    if Truthy(u.username) then "@" + u.username.value + " (" + IdString(u) + ")"
    else if Truthy(u.firstName) then u.firstName.value + " (" + IdString(u) + ")"
    else "User " + IdString(u)
  }

  /** The last character of a rendered id is a digit. */
  lemma IdStringEndsInDigit(u: BotUser)
    ensures '0' <= IdString(u)[|IdString(u)| - 1] <= '9'
  {
    var n := if u.telegramId < 0 then -u.telegramId else u.telegramId;
    var digits := NatToString(n);
    if u.telegramId < 0 {
      assert IdString(u) == "-" + digits;
      assert IdString(u)[|IdString(u)| - 1] == digits[|digits| - 1];
    }
  }

  /** `__str__` falls back to "User id" exactly when the user has neither a
      username nor a first name; otherwise it ends with " (id)". */
  lemma DisplayStringFallback(u: BotUser)
    ensures DisplayString(u) == "User " + IdString(u)
        <==> !Truthy(u.username) && !Truthy(u.firstName)
    ensures Truthy(u.username) || Truthy(u.firstName) ==>
              var r := DisplayString(u);
              var tail := " (" + IdString(u) + ")";
              |r| > |tail| && r[|r| - |tail|..] == tail
  {
    var r := DisplayString(u);
    var id := IdString(u);
    var fallback := "User " + id;
    if Truthy(u.username) {
      assert r[0] == '@' && fallback[0] == 'U';
    } else if Truthy(u.firstName) {
      IdStringEndsInDigit(u);
      assert r[|r| - 1] == ')';
      assert fallback[|fallback| - 1] == id[|id| - 1];
    }
  }

  /** `BotUser.full_name`: "first last" when both are set, else the first
      name, else "@username", else "User id". */
  function FullName(u: BotUser): (r: string)
    ensures r != ""
    ensures Truthy(u.firstName) && Truthy(u.lastName) ==>
              var first, last := u.firstName.value, u.lastName.value;
              |r| == |first| + 1 + |last| && r[..|first|] == first
              && r[|first|] == ' ' && r[|first| + 1..] == last
    ensures Truthy(u.firstName) && !Truthy(u.lastName) ==> r == u.firstName.value
    ensures !Truthy(u.firstName) && Truthy(u.username) ==>
              r[0] == '@' && r[1..] == u.username.value
    ensures !Truthy(u.firstName) && !Truthy(u.username) ==> r == "User " + IdString(u)
  {
    if Truthy(u.firstName) && Truthy(u.lastName) then u.firstName.value + " " + u.lastName.value
    else if Truthy(u.firstName) then u.firstName.value
    else if Truthy(u.username) then "@" + u.username.value
    else "User " + IdString(u)
  }

  /** How `full_name` and `__str__` relate: with neither a first name nor a
      username both are the "User id" fallback; with a first name but no last
      name and no username, or with a username but no first name, `__str__`
      is the full name followed by " (id)". */
  lemma FullNameAgreesWithDisplay(u: BotUser)
    ensures !Truthy(u.username) && !Truthy(u.firstName) ==>
              FullName(u) == DisplayString(u)
    ensures !Truthy(u.username) && Truthy(u.firstName) && !Truthy(u.lastName) ==>
              DisplayString(u) == FullName(u) + " (" + IdString(u) + ")"
    ensures Truthy(u.username) && !Truthy(u.firstName) ==>
              DisplayString(u) == FullName(u) + " (" + IdString(u) + ")"
  {
  }

  /** `days_since_registration`: whole days elapsed, `timedelta.days`, which
      floors. */
  function DaysSinceRegistration(u: BotUser, now: int): int
  {
    (now - u.createdAt) / SecondsPerDay
  }

  /** `is_new_user`: registered less than seven whole days ago, i.e. strictly
      less than 7 * 86400 seconds before `now`. */
  function IsNewUser(u: BotUser, now: int): (r: bool)
    ensures r <==> now < u.createdAt + 7 * SecondsPerDay
  {
    DaysSinceRegistration(u, now) < 7
  }
}

=== FILE: news.dfy ===
/** News articles, the two adjacent news windows around an anchor, and the
    per-window sentiment summary (count, mean sentiment, positive and
    negative counts). */
module News {
  import opened Common
  import PriceWindow

  /** An article of one coin. `sentiment` is the FinBERT score when a
      NewsSentiment row is attached to the article and None otherwise (the
      code tests this with `hasattr(n, 'newssentiment')`). */
  datatype Article = Article(publishedAt: int, sentiment: Option<real>)

  const PositiveCutoff: real := 0.05
  const NegativeCutoff: real := -0.05

  /** Summary of one window: article count, number of scored articles, mean
      score (0 when nothing is scored), scores above 0.05 and below -0.05. */
  datatype NewsWindow = NewsWindow(
    count: nat,
    scored: nat,
    meanSentiment: real,
    positive: nat,
    negative: nat)

  /** The sentiment scores of the scored articles, in article order. */
  function Scores(articles: seq<Article>): (r: seq<real>)
    ensures |r| <= |articles|
  {
    if articles == [] then []
    else match articles[0].sentiment
      case Some(s) => [s] + Scores(articles[1..])
      case None => Scores(articles[1..])
  }

  /** Number of scores strictly above `t`. */
  function CountAbove(xs: seq<real>, t: real): nat
  {
    if xs == [] then 0 else (if xs[0] > t then 1 else 0) + CountAbove(xs[1..], t)
  }

  /** Number of scores strictly below `t`. */
  function CountBelow(xs: seq<real>, t: real): nat
  {
    if xs == [] then 0 else (if xs[0] < t then 1 else 0) + CountBelow(xs[1..], t)
  }

  /** A score is never counted both as positive and as negative, so the two
      counts together are at most the number of scores. */
  lemma {:induction false} PositiveNegativeBounded(xs: seq<real>)
    ensures CountAbove(xs, PositiveCutoff) + CountBelow(xs, NegativeCutoff) <= |xs|
  {
    if xs != [] {
      PositiveNegativeBounded(xs[1..]);
    }
  }

  function Summarize(articles: seq<Article>): (w: NewsWindow)
    ensures w.count == |articles|
    ensures w.positive + w.negative <= w.scored <= w.count
    ensures w.scored == 0 ==> w.meanSentiment == 0.0
  {
    var scores := Scores(articles);
    PositiveNegativeBounded(scores);
    NewsWindow(
      |articles|,
      |scores|,
      if |scores| > 0 then PriceWindow.Mean(scores) else 0.0,
      CountAbove(scores, PositiveCutoff),
      CountBelow(scores, NegativeCutoff))
  }

  /** Unscored articles count toward the window size but not the mean: adding
      one changes the count and nothing else. */
  lemma {:induction false} UnscoredArticleOnlyCounts(a: Article, articles: seq<Article>)
    requires a.sentiment.None?
    ensures Summarize([a] + articles).count == Summarize(articles).count + 1
    ensures Summarize([a] + articles).scored == Summarize(articles).scored
    ensures Summarize([a] + articles).meanSentiment == Summarize(articles).meanSentiment
    ensures Summarize([a] + articles).positive == Summarize(articles).positive
    ensures Summarize([a] + articles).negative == Summarize(articles).negative
  {
    assert ([a] + articles)[1..] == articles;
  }

  lemma {:induction false} ScoresWithin(articles: seq<Article>, lo: real, hi: real)
    requires forall a :: a in articles && a.sentiment.Some? ==> lo <= a.sentiment.value <= hi
    ensures forall i :: 0 <= i < |Scores(articles)| ==> lo <= Scores(articles)[i] <= hi
  {
    if articles != [] {
      ScoresWithin(articles[1..], lo, hi);
    }
  }

  /** With every score in [-1, 1] the window's mean is in [-1, 1] too. */
  lemma MeanSentimentBounded(articles: seq<Article>)
    requires forall a :: a in articles && a.sentiment.Some? ==> -1.0 <= a.sentiment.value <= 1.0
    ensures -1.0 <= Summarize(articles).meanSentiment <= 1.0
  {
    var scores := Scores(articles);
    if |scores| > 0 {
      ScoresWithin(articles, -1.0, 1.0);
      PriceWindow.MeanWithinBounds(scores, -1.0, 1.0);
    }
  }

  // ---------------------------------------------------------------------
  // Window membership

  /** Training set, current window: published on a calendar date in
      [d - 3, d], both ends inclusive. */
  predicate InDatasetCurrent(d: int, a: Article)
  {
    d - 3 <= DateOf(a.publishedAt) <= d
  }

  /** Training set, previous window: published on a date in [d - 6, d - 3). */
  predicate InDatasetPrevious(d: int, a: Article)
  {
    d - 6 <= DateOf(a.publishedAt) < d - 3
  }

  /** Live, current window: published at or after `now` minus three days,
      with no upper bound. */
  predicate InLiveCurrent(now: int, a: Article)
  {
    a.publishedAt >= now - 3 * SecondsPerDay
  }

  /** Live, previous window: published in [now - 6 days, now - 3 days). */
  predicate InLivePrevious(now: int, a: Article)
  {
    now - 6 * SecondsPerDay <= a.publishedAt < now - 3 * SecondsPerDay
  }

  function DatasetCurrent(articles: seq<Article>, d: int): seq<Article>
  {
    Filter(articles, a => InDatasetCurrent(d, a))
  }

  function DatasetPrevious(articles: seq<Article>, d: int): seq<Article>
  {
    Filter(articles, a => InDatasetPrevious(d, a))
  }

  function LiveCurrent(articles: seq<Article>, now: int): seq<Article>
  {
    Filter(articles, a => InLiveCurrent(now, a))
  }

  function LivePrevious(articles: seq<Article>, now: int): seq<Article>
  {
    Filter(articles, a => InLivePrevious(now, a))
  }

  /** The two training windows are disjoint and together hold exactly the
      articles dated d - 6 .. d, each as often as it occurs there. */
  lemma {:induction false} DatasetWindowsPartition(articles: seq<Article>, d: int)
    ensures forall a :: a in DatasetCurrent(articles, d) ==> a !in DatasetPrevious(articles, d)
    ensures multiset(DatasetCurrent(articles, d)) + multiset(DatasetPrevious(articles, d))
         == multiset(Filter(articles, (a: Article) => d - 6 <= DateOf(a.publishedAt) <= d))
    ensures |DatasetCurrent(articles, d)| + |DatasetPrevious(articles, d)|
         == |Filter(articles, (a: Article) => d - 6 <= DateOf(a.publishedAt) <= d)|
  {
    if articles != [] {
      DatasetWindowsPartition(articles[1..], d);
    }
  }

  /** The two live windows are disjoint and together hold exactly the
      articles published from six days before `now` onwards. */
  lemma {:induction false} LiveWindowsPartition(articles: seq<Article>, now: int)
    ensures forall a :: a in LiveCurrent(articles, now) ==> a !in LivePrevious(articles, now)
    ensures multiset(LiveCurrent(articles, now)) + multiset(LivePrevious(articles, now))
         == multiset(Filter(articles, (a: Article) => a.publishedAt >= now - 6 * SecondsPerDay))
    ensures |LiveCurrent(articles, now)| + |LivePrevious(articles, now)|
         == |Filter(articles, (a: Article) => a.publishedAt >= now - 6 * SecondsPerDay)|
  {
    if articles != [] {
      LiveWindowsPartition(articles[1..], now);
    }
  }

  /** The training current window spans four calendar dates and the previous
      one three: one article on each date from d - 6 to d gives counts 4 and 3. */
  lemma DatasetWindowsUneven(d: int)
    ensures var daily := seq(7, k requires 0 <= k < 7 => Article((d - 6 + k) * SecondsPerDay, None));
            |DatasetCurrent(daily, d)| == 4 && |DatasetPrevious(daily, d)| == 3
  {
    var daily := seq(7, k requires 0 <= k < 7 => Article((d - 6 + k) * SecondsPerDay, None));
    forall k | 0 <= k < 7
      ensures DateOf(daily[k].publishedAt) == d - 6 + k
    {
      var t := (d - 6 + k) * SecondsPerDay;
      assert t / SecondsPerDay == d - 6 + k;
    }
    var older, recent := daily[..3], daily[3..];
    assert daily == older + recent;
    FilterNone(older, a => InDatasetCurrent(d, a));
    FilterAll(recent, a => InDatasetCurrent(d, a));
    FilterAll(older, a => InDatasetPrevious(d, a));
    FilterNone(recent, a => InDatasetPrevious(d, a));
    FilterAppend(older, recent, a => InDatasetCurrent(d, a));
    FilterAppend(older, recent, a => InDatasetPrevious(d, a));
  }
}

=== FILE: prediction.dfy ===
/** `generate_daily_predictions_classifier`: for every coin with live
    features, classify them, turn the classifier output into a stored
    direction prediction (confidence, estimated change and price), and
    insert or update the row keyed by (coin, today). The scaler and the
    classifier are opaque functions passed in with the feature columns. */
module Prediction {
  import opened Common
  import opened PriceWindow
  import opened Models
  import opened Features
  import opened LiveFeatures
  import Dataset
  import Tables

  datatype Direction = Up | Down
  {
    /** The stored `predicted_direction` value. */
    function Code(): string
    {
      match this
      case Up => "UP"
      case Down => "DOWN"
    }
  }

  /** `model.predict(X)[0]` and `model.predict_proba(X)[0]`. */
  datatype ClassifierOutput = ClassifierOutput(code: int, probDown: real, probUp: real)

  /** The loaded `joblib` artifacts: the feature columns, the scaler's
      transform and the classifier. */
  datatype Artifacts = Artifacts(
    featureCols: seq<FeatureName>,
    scale: seq<real> -> seq<real>,
    classify: seq<real> -> ClassifierOutput)

  /** The `defaults` of one stored DirectionPrediction. */
  datatype DirectionPrediction = DirectionPrediction(
    direction: Direction,
    confidence: real,
    probUp: real,
    probDown: real,
    estimatedChange: real,
    currentPrice: real,
    estimatedPrice: real,
    modelVersion: string)

  const ChangePerConfidence: real := 1.5
  const ModelVersion: string := "classifier_v2"

  /** A coin as the loop sees it: its primary key, its snapshot price and
      its stored history. */
  datatype Coin = Coin(id: int, price: real, history: Dataset.CoinHistory)

  /** The post-processing of one classifier output. The direction comes from
      the predicted class code alone, not from comparing the probabilities. */
  function PostProcess(out: ClassifierOutput, currentPrice: real): (p: DirectionPrediction)
    ensures p.direction == Up <==> out.code == 1
    ensures p.confidence >= out.probDown && p.confidence >= out.probUp
    ensures p.confidence == out.probDown || p.confidence == out.probUp
    ensures p.direction == Up ==> p.estimatedChange == ChangePerConfidence * p.confidence
    ensures p.direction == Down ==> p.estimatedChange == -ChangePerConfidence * p.confidence
    ensures p.probUp == out.probUp && p.probDown == out.probDown && p.currentPrice == currentPrice
  {
    var direction := if out.code == 1 then Up else Down;
    var confidence := Max(out.probDown, out.probUp);
    var change := if direction == Up then ChangePerConfidence * confidence else -ChangePerConfidence * confidence;
    DirectionPrediction(direction, confidence, out.probUp, out.probDown, change,
                        currentPrice, currentPrice * (1.0 + change / 100.0), ModelVersion)
  }

  /** The estimated price is the current price moved by exactly the
      estimated percent change. */
  lemma EstimatedPriceRoundTrip(out: ClassifierOutput, currentPrice: real)
    requires currentPrice != 0.0
    ensures var p := PostProcess(out, currentPrice);
            PercentChange(p.currentPrice, p.estimatedPrice) == p.estimatedChange
  {
    var p := PostProcess(out, currentPrice);
    var c := p.estimatedChange;
    calc {
      PercentChange(currentPrice, currentPrice * (1.0 + c / 100.0));
      (currentPrice * (1.0 + c / 100.0) - currentPrice) / currentPrice * 100.0;
      { assert currentPrice * (1.0 + c / 100.0) - currentPrice == currentPrice * (c / 100.0); }
      (currentPrice * (c / 100.0)) / currentPrice * 100.0;
    }
  }

  /** With probabilities in [0, 1] and a positive price: the estimated change
      lies in [-1.5, 1.5], its sign follows the predicted direction, and an UP
      prediction never estimates a lower price (DOWN never a higher one). */
  lemma EstimateFollowsDirection(out: ClassifierOutput, currentPrice: real)
    requires 0.0 <= out.probDown <= 1.0 && 0.0 <= out.probUp <= 1.0
    requires currentPrice > 0.0
    ensures var p := PostProcess(out, currentPrice);
            -1.5 <= p.estimatedChange <= 1.5
            && (p.direction == Up ==> p.estimatedChange >= 0.0 && p.estimatedPrice >= currentPrice)
            && (p.direction == Down ==> p.estimatedChange <= 0.0 && p.estimatedPrice <= currentPrice)
  {
    var p := PostProcess(out, currentPrice);
    var c := p.estimatedChange;
    assert p.estimatedPrice - currentPrice == currentPrice * (c / 100.0);
  }

  /** When the two probabilities add up to one the confidence is at least
      0.5, so the estimate moves the price by at least 0.75 percent; a
      'strong' prediction moves it by at least 1.05 percent. */
  lemma ConfidenceFloor(out: ClassifierOutput, currentPrice: real)
    requires out.probDown + out.probUp == 1.0
    ensures var p := PostProcess(out, currentPrice);
            p.confidence >= 0.5
            && (p.estimatedChange >= 0.75 || p.estimatedChange <= -0.75)
            && (SignalStrengthOf(p.confidence) == Strong ==>
                  p.estimatedChange >= 1.05 || p.estimatedChange <= -1.05)
  {
  }

  /** `ClassifierOutput` leaves the class code and the probabilities
      unrelated (the fitted classifier's `predict` agrees with its
      `predict_proba`, which the model does not assume). Post-processing
      reads the direction from the code alone: given a code and
      probabilities that disagree, the direction still follows the code. */
  lemma DirectionMayContradictProbabilities()
    ensures var p := PostProcess(ClassifierOutput(1, 0.8, 0.2), 100.0);
            p.direction == Up && p.confidence == p.probDown && p.estimatedChange == 1.2
  {
  }

  // ---------------------------------------------------------------------
  // The keyed prediction table

  /** A DirectionPrediction row's unique key: (coin, prediction_date). */
  type Key = (int, int)

  /** The DirectionPrediction table: one row per (coin, prediction_date). */
  type PredictionTable = Tables.Table<Key, DirectionPrediction>

  /** The stored prediction for one coin, or None when its features are
      missing (fewer than seven recent rows) or cannot be computed (a zero
      oldest price): both skip the coin. */
  function PredictionFor(c: Coin, now: int, a: Artifacts): Option<DirectionPrediction>
  {
    match ComputeFeaturesForCoin(c.history, now)
    case Ready(fv) => Some(PostProcess(a.classify(a.scale(Select(fv, a.featureCols))), c.price))
    case Insufficient => None
    case Failed => None
  }

  function Entry(c: Coin, now: int, a: Artifacts): seq<(Key, DirectionPrediction)>
  {
    match PredictionFor(c, now, a)
    case Some(p) => [((c.id, DateOf(now)), p)]
    case None => []
  }

  /** The upserts the loop performs, in coin order: one per coin that gets a
      prediction, keyed by (coin, today). */
  function Predictions(coins: seq<Coin>, now: int, a: Artifacts): (ps: seq<(Key, DirectionPrediction)>)
    ensures |ps| <= |coins|
  {
    if coins == [] then []
    else Predictions(coins[..|coins| - 1], now, a) + Entry(coins[|coins| - 1], now, a)
  }

  datatype RunResult =
    | NotTrained
    | Success(created: nat, updated: nat)

  /** One pass of the prediction loop, for coin i: its row, if it gets one,
      is upserted, and the counter that matches what the upsert did goes up
      by one. */
  method PredictCoin(table: PredictionTable, a: Artifacts, coins: seq<Coin>, i: nat, now: int,
                     ghost rows0: map<Key, DirectionPrediction>, created: nat, updated: nat)
    returns (created': nat, updated': nat)
    modifies table
    requires i < |coins|
    requires table.rows == Tables.ApplyAll(rows0, Predictions(coins[..i], now, a))
    requires created == Tables.CountNew(rows0, Predictions(coins[..i], now, a))
    requires created + updated == |Predictions(coins[..i], now, a)|
    ensures table.rows == Tables.ApplyAll(rows0, Predictions(coins[..i + 1], now, a))
    ensures created' == Tables.CountNew(rows0, Predictions(coins[..i + 1], now, a))
    ensures created' + updated' == |Predictions(coins[..i + 1], now, a)|
  {
    var c := coins[i];
    ghost var before := Predictions(coins[..i], now, a);
    ghost var after := Predictions(coins[..i + 1], now, a);
    assert coins[..i + 1][..i] == coins[..i];
    created', updated' := created, updated;
    var outcome := ComputeFeaturesForCoin(c.history, now);
    if outcome.Ready? {
      var x := Select(outcome.features, a.featureCols);
      var p := PostProcess(a.classify(a.scale(x)), c.price);
      assert after == before + [((c.id, DateOf(now)), p)];
      Tables.ApplyAllSnoc(rows0, before, ((c.id, DateOf(now)), p));
      var isNew := table.UpdateOrCreate((c.id, DateOf(now)), p);
      if isNew {
        created' := created' + 1;
      } else {
        updated' := updated' + 1;
      }
      assert table.rows == Tables.ApplyAll(rows0, after);
      assert created' == Tables.CountNew(rows0, after);
    } else {
      assert after == before + [];
      assert after == before;
    }
  }

  /** The prediction loop. Without artifacts nothing is written; otherwise
      every coin with features gets its row upserted, the counters split the
      processed coins into created and updated rows, and the table grows by
      exactly the created rows. */
  method GenerateDailyPredictions(table: PredictionTable, artifacts: Option<Artifacts>, coins: seq<Coin>, now: int)
    returns (r: RunResult)
    modifies table
    ensures artifacts.None? ==> r == NotTrained && table.rows == old(table.rows)
    ensures artifacts.Some? ==>
              var preds := Predictions(coins, now, artifacts.value);
              r.Success?
              && r.created + r.updated == |preds|
              && r.created == Tables.CountNew(old(table.rows), preds)
              && |table.rows| == |old(table.rows)| + r.created
              && table.rows == Tables.ApplyAll(old(table.rows), preds)
  {
    if artifacts.None? {
      return NotTrained;
    }
    var a := artifacts.value;
    var created, updated := 0, 0;
    ghost var rows0 := table.rows;
    var i := 0;
    while i < |coins|
      invariant 0 <= i <= |coins|
      invariant table.rows == Tables.ApplyAll(rows0, Predictions(coins[..i], now, a))
      invariant created == Tables.CountNew(rows0, Predictions(coins[..i], now, a))
      invariant created + updated == |Predictions(coins[..i], now, a)|
    {
      created, updated := PredictCoin(table, a, coins, i, now, rows0, created, updated);
      i := i + 1;
    }
    assert coins[..i] == coins;
    Tables.CountNewIsGrowth(rows0, Predictions(coins, now, a));
    return Success(created, updated);
  }

  // ---------------------------------------------------------------------
  // What the loop leaves in the table

  /** One coin's step of `Predictions`: nothing when it gets no prediction,
      otherwise its own upsert at today's key. */
  lemma PredictionsStep(coins: seq<Coin>, now: int, a: Artifacts)
    requires coins != []
    ensures var prefix, c := coins[..|coins| - 1], coins[|coins| - 1];
            var ps := Predictions(coins, now, a);
            var before := Predictions(prefix, now, a);
            (PredictionFor(c, now, a).None? ==> ps == before)
            && (PredictionFor(c, now, a).Some? ==>
                  |ps| == |before| + 1 && ps[..|before|] == before
                  && ps[|before|] == ((c.id, DateOf(now)), PredictionFor(c, now, a).value))
  {
    var prefix, c := coins[..|coins| - 1], coins[|coins| - 1];
    var before := Predictions(prefix, now, a);
    if PredictionFor(c, now, a).None? {
      assert Entry(c, now, a) == [];
      assert before + [] == before;
    }
  }

  /** Every key the loop touches is today's key of a coin that got a
      prediction. */
  lemma {:induction false} PredictionKeys(coins: seq<Coin>, now: int, a: Artifacts, k: Key)
    requires k in Tables.KeySet(Predictions(coins, now, a))
    ensures k.1 == DateOf(now)
    ensures exists c :: c in coins && c.id == k.0 && PredictionFor(c, now, a).Some?
  {
    var prefix, c := coins[..|coins| - 1], coins[|coins| - 1];
    var ps := Predictions(coins, now, a);
    var before := Predictions(prefix, now, a);
    PredictionsStep(coins, now, a);
    if PredictionFor(c, now, a).Some? && k == (c.id, DateOf(now)) {
      assert c in coins;
    } else {
      if PredictionFor(c, now, a).Some? {
        assert ps[..|ps| - 1] == before;
      }
      assert k in Tables.KeySet(before);
      PredictionKeys(prefix, now, a, k);
      var x :| x in prefix && x.id == k.0 && PredictionFor(x, now, a).Some?;
      assert x in coins;
    }
  }

  /** Rows of other days, and today's rows of coins that got no prediction,
      are left as they were. */
  lemma UntouchedRows(rows: map<Key, DirectionPrediction>, coins: seq<Coin>, now: int, a: Artifacts, k: Key)
    requires k in rows
    requires k.1 != DateOf(now) || forall c :: c in coins && c.id == k.0 ==> PredictionFor(c, now, a).None?
    ensures var after := Tables.ApplyAll(rows, Predictions(coins, now, a));
            k in after && after[k] == rows[k]
  {
    if k in Tables.KeySet(Predictions(coins, now, a)) {
      PredictionKeys(coins, now, a, k);
      assert false;
    }
    Tables.ApplyAllOutside(rows, Predictions(coins, now, a), k);
  }

  predicate DistinctIds(coins: seq<Coin>)
  {
    forall i, j :: 0 <= i < j < |coins| ==> coins[i].id != coins[j].id
  }

  /** With distinct coin keys, each coin with features ends with today's row
      holding exactly its own post-processed prediction. */
  lemma {:induction false} StoredPrediction(rows: map<Key, DirectionPrediction>, coins: seq<Coin>, now: int, a: Artifacts, i: nat)
    requires DistinctIds(coins)
    requires i < |coins| && PredictionFor(coins[i], now, a).Some?
    ensures var after := Tables.ApplyAll(rows, Predictions(coins, now, a));
            (coins[i].id, DateOf(now)) in after
            && after[(coins[i].id, DateOf(now))] == PredictionFor(coins[i], now, a).value
  {
    var prefix, c := coins[..|coins| - 1], coins[|coins| - 1];
    var ps := Predictions(coins, now, a);
    var before := Predictions(prefix, now, a);
    PredictionsStep(coins, now, a);
    if i == |coins| - 1 {
      assert ps[..|ps| - 1] == before;
    } else {
      assert prefix[i] == coins[i];
      assert coins[i].id != c.id;
      StoredPrediction(rows, prefix, now, a, i);
      if PredictionFor(c, now, a).Some? {
        assert ps[..|ps| - 1] == before;
      }
    }
  }

  /** A second run on the same day with the same inputs rewrites the same
      rows: it creates none and leaves the table as the first run left it. */
  lemma SecondRunOnlyUpdates(rows: map<Key, DirectionPrediction>, coins: seq<Coin>, now: int, a: Artifacts)
    ensures var preds := Predictions(coins, now, a);
            var first := Tables.ApplyAll(rows, preds);
            Tables.ApplyAll(first, preds) == first && Tables.CountNew(first, preds) == 0
  {
    Tables.RerunIsIdempotent(rows, Predictions(coins, now, a));
  }
}

=== FILE: price_window.dfy ===
/** Statistics over a window of daily prices: arithmetic mean, population
    variance (standing in for `np.std`, see README), percent change, and the
    seven-day trend in both the oldest-first and the newest-first spelling. */
module PriceWindow {
  import opened Common

  /** Days in the trailing price window. */
  const WindowSize: nat := 7

  /** `np.mean` of a non-empty list. */
  function Mean(xs: seq<real>): real
    requires |xs| > 0
  {
    Sum(xs) / (|xs| as real)
  }

  lemma {:induction false} SumBounds(xs: seq<real>, lo: real, hi: real)
    requires forall i :: 0 <= i < |xs| ==> lo <= xs[i] <= hi
    ensures (|xs| as real) * lo <= Sum(xs) <= (|xs| as real) * hi
  {
    if xs != [] {
      SumBounds(xs[1..], lo, hi);
    }
  }

  /** The mean lies between any lower and upper bound of the values. */
  lemma MeanWithinBounds(xs: seq<real>, lo: real, hi: real)
    requires |xs| > 0
    requires forall i :: 0 <= i < |xs| ==> lo <= xs[i] <= hi
    ensures lo <= Mean(xs) <= hi
  {
    SumBounds(xs, lo, hi);
    var n := |xs| as real;
    assert Mean(xs) * n == Sum(xs);
  }

  /** Squared deviations from `m`, elementwise. */
  function SquaredDeviations(xs: seq<real>, m: real): (r: seq<real>)
    ensures |r| == |xs|
    ensures forall i :: 0 <= i < |xs| ==> r[i] == (xs[i] - m) * (xs[i] - m)
  {
    seq(|xs|, i requires 0 <= i < |xs| => (xs[i] - m) * (xs[i] - m))
  }

  /** Population variance (`np.var`, the square of `np.std`). */
  function Variance(xs: seq<real>): real
    requires |xs| > 0
  {
    Mean(SquaredDeviations(xs, Mean(xs)))
  }

  lemma {:induction false} SumNonNegative(xs: seq<real>)
    requires forall i :: 0 <= i < |xs| ==> xs[i] >= 0.0
    ensures Sum(xs) >= 0.0
  {
    if xs != [] {
      SumNonNegative(xs[1..]);
    }
  }

  lemma VarianceNonNegative(xs: seq<real>)
    requires |xs| > 0
    ensures Variance(xs) >= 0.0
  {
    var d := SquaredDeviations(xs, Mean(xs));
    SumNonNegative(d);
  }

  /** Percent change from `before` to `after`, `(after - before) / before * 100`.
      Python raises ZeroDivisionError for `before == 0`; callers model that. */
  function PercentChange(before: real, after: real): real
    requires before != 0.0
  {
    (after - before) / before * 100.0
  }

  /** Applying a percent change to its starting price gives back the end price. */
  lemma PercentChangeInverse(before: real, after: real)
    requires before != 0.0
    ensures before * (1.0 + PercentChange(before, after) / 100.0) == after
  {
  }

  /** For a positive starting price, the change is positive exactly when the
      price rose. */
  lemma PercentChangeSign(before: real, after: real)
    requires before > 0.0
    ensures PercentChange(before, after) > 0.0 <==> after > before
    ensures PercentChange(before, after) < 0.0 <==> after < before
  {
    var c := PercentChange(before, after);
    assert c * before == (after - before) * 100.0;
    if c > 0.0 {
      assert c * before > 0.0;
    }
    if c < 0.0 {
      assert c * before < 0.0;
    }
  }

  /** Trend over an oldest-first window: newest against oldest, in percent. */
  function TrendOldestFirst(p: seq<real>): real
    requires |p| > 0 && p[0] != 0.0
  {
    PercentChange(p[0], p[|p| - 1])
  }

  /** Trend over a newest-first window: `(p[0] - p[-1]) / p[-1] * 100`. */
  function TrendNewestFirst(p: seq<real>): real
    requires |p| > 0 && p[|p| - 1] != 0.0
  {
    (p[0] - p[|p| - 1]) / p[|p| - 1] * 100.0
  }

  /** The newest-first trend formula on the reversed window is the
      oldest-first formula on the window. */
  lemma TrendMirror(p: seq<real>)
    requires |p| > 0 && p[0] != 0.0
    ensures Reverse(p)[|p| - 1] == p[0]
    ensures TrendNewestFirst(Reverse(p)) == TrendOldestFirst(p)
  {
    ReverseAt(p, 0);
    ReverseAt(p, |p| - 1);
  }

  lemma MeanReverse(xs: seq<real>)
    requires |xs| > 0
    ensures Mean(Reverse(xs)) == Mean(xs)
  {
    SumReverse(xs);
  }

  /** Reversal commutes with taking squared deviations. */
  lemma SquaredDeviationsReverse(xs: seq<real>, m: real)
    ensures Reverse(SquaredDeviations(xs, m)) == SquaredDeviations(Reverse(xs), m)
  {
    var a := Reverse(SquaredDeviations(xs, m));
    var b := SquaredDeviations(Reverse(xs), m);
    forall k | 0 <= k < |xs|
      ensures a[k] == b[k]
    {
      ReverseAt(SquaredDeviations(xs, m), k);
      ReverseAt(xs, k);
    }
  }

  lemma VarianceReverse(xs: seq<real>)
    requires |xs| > 0
    ensures Variance(Reverse(xs)) == Variance(xs)
  {
    MeanReverse(xs);
    SquaredDeviationsReverse(xs, Mean(xs));
    MeanReverse(SquaredDeviations(xs, Mean(xs)));
  }
}

=== FILE: tables.dfy ===
/** Django's `update_or_create` on a table with a unique key, as a fold of
    upserts over a map: a map holds at most one row per key, which is what
    the `unique_together` constraints guarantee. */
module Tables {

  /** A table with a unique key, holding at most one row per key. */
  class Table<K(==), V> {
    var rows: map<K, V>

    constructor(initial: map<K, V>)
      ensures rows == initial
    {
      rows := initial;
    }

    /** `update_or_create`: overwrite the row at `key`, or create it, and
        report which of the two happened. */
    method UpdateOrCreate(key: K, value: V) returns (created: bool)
      modifies this
      ensures created <==> key !in old(rows)
      ensures rows == old(rows)[key := value]
      ensures |rows| == |old(rows)| + (if created then 1 else 0)
    {
      created := key !in rows;
      rows := rows[key := value];
    }
  }

  /** The table after upserting `updates` one after another. */
  function ApplyAll<K(==), V>(rows: map<K, V>, updates: seq<(K, V)>): map<K, V>
  {
    if updates == [] then rows
    else
      var last := updates[|updates| - 1];
      ApplyAll(rows, updates[..|updates| - 1])[last.0 := last.1]
  }

  /** How many of the upserts create a row (the others update one). */
  function CountNew<K(==), V>(rows: map<K, V>, updates: seq<(K, V)>): (n: nat)
    ensures n <= |updates|
  {
    if updates == [] then 0
    else
      var last := updates[|updates| - 1];
      CountNew(rows, updates[..|updates| - 1])
        + (if last.0 in ApplyAll(rows, updates[..|updates| - 1]) then 0 else 1)
  }

  /** The keys the upserts touch. */
  function KeySet<K(==), V>(updates: seq<(K, V)>): (ks: set<K>)
    ensures forall i :: 0 <= i < |updates| ==> updates[i].0 in ks
    ensures forall k :: k in ks ==> exists i :: 0 <= i < |updates| && updates[i].0 == k
  {
    if updates == [] then {}
    else KeySet(updates[..|updates| - 1]) + {updates[|updates| - 1].0}
  }

  /** One more upsert at the end writes its row over the table so far, and
      creates a row exactly when its key is new. */
  lemma ApplyAllSnoc<K, V>(rows: map<K, V>, updates: seq<(K, V)>, u: (K, V))
    ensures ApplyAll(rows, updates + [u]) == ApplyAll(rows, updates)[u.0 := u.1]
    ensures CountNew(rows, updates + [u]) == CountNew(rows, updates) + (if u.0 in ApplyAll(rows, updates) then 0 else 1)
  {
    assert (updates + [u])[..|updates|] == updates;
  }

  /** The upserts add exactly their own keys to the table. */
  lemma {:induction false} ApplyAllDomain<K, V>(rows: map<K, V>, updates: seq<(K, V)>)
    ensures ApplyAll(rows, updates).Keys == rows.Keys + KeySet(updates)
  {
    if updates != [] {
      ApplyAllDomain(rows, updates[..|updates| - 1]);
    }
  }

  /** A row whose key no upsert touches keeps its value. */
  lemma {:induction false} ApplyAllOutside<K, V>(rows: map<K, V>, updates: seq<(K, V)>, k: K)
    requires k in rows && k !in KeySet(updates)
    ensures k in ApplyAll(rows, updates) && ApplyAll(rows, updates)[k] == rows[k]
  {
    if updates != [] {
      ApplyAllOutside(rows, updates[..|updates| - 1], k);
    }
  }

  /** A touched key ends with the value of its last upsert: the upsert at
      index i wins when no later one has the same key. */
  lemma {:induction false} ApplyAllLastWins<K, V>(rows: map<K, V>, updates: seq<(K, V)>, i: nat)
    requires i < |updates|
    requires forall j :: i < j < |updates| ==> updates[j].0 != updates[i].0
    ensures updates[i].0 in ApplyAll(rows, updates)
    ensures ApplyAll(rows, updates)[updates[i].0] == updates[i].1
  {
    if i < |updates| - 1 {
      var prefix := updates[..|updates| - 1];
      assert prefix[i] == updates[i];
      ApplyAllLastWins(rows, prefix, i);
    }
  }

  /** Where a key ends up depends only on the upserts, not on what the table
      held before. */
  lemma {:induction false} ApplyAllBaseIrrelevant<K, V>(x: map<K, V>, y: map<K, V>, updates: seq<(K, V)>, k: K)
    requires k in KeySet(updates)
    ensures k in ApplyAll(x, updates) && k in ApplyAll(y, updates)
    ensures ApplyAll(x, updates)[k] == ApplyAll(y, updates)[k]
  {
    var last := updates[|updates| - 1];
    if k != last.0 {
      ApplyAllBaseIrrelevant(x, y, updates[..|updates| - 1], k);
    }
  }

  /** The number of created rows is the table's growth. */
  lemma {:induction false} CountNewIsGrowth<K, V>(rows: map<K, V>, updates: seq<(K, V)>)
    ensures |ApplyAll(rows, updates)| == |rows| + CountNew(rows, updates)
  {
    if updates != [] {
      CountNewIsGrowth(rows, updates[..|updates| - 1]);
    }
  }

  /** Repeating the same upserts changes nothing and creates nothing. */
  lemma RerunIsIdempotent<K, V>(rows: map<K, V>, updates: seq<(K, V)>)
    ensures ApplyAll(ApplyAll(rows, updates), updates) == ApplyAll(rows, updates)
    ensures CountNew(ApplyAll(rows, updates), updates) == 0
  {
    var once := ApplyAll(rows, updates);
    var twice := ApplyAll(once, updates);
    ApplyAllDomain(rows, updates);
    ApplyAllDomain(once, updates);
    forall k | k in once
      ensures twice[k] == once[k]
    {
      if k in KeySet(updates) {
        ApplyAllBaseIrrelevant(once, rows, updates, k);
      } else {
        ApplyAllOutside(once, updates, k);
      }
    }
    assert twice == once;
    CountNewIsGrowth(once, updates);
  }
}

=== FILE: training.dfy ===
/** The data shaping of `train_classification_model_v2`: the six feature
    columns fed to the classifier, the causal (date-ordered) 80/20 split, and
    the price/news grouping of feature importances. The scaler, the gradient
    boosting classifier and its metrics are outside the model. */
module Training {
  import opened Common
  import opened Features
  import Dataset

  type TrainingRow = Dataset.TrainingRow

  /** The classifier's input columns, in order. */
  const FeatureCols: seq<FeatureName> :=
    [PriceTrend7d, Volatility7d, AvgVolume7d, AvgPrice7d, SentimentChange, PriceSentimentAlignment]

  /** The columns reported as price features. */
  const PriceFeatureNames: seq<FeatureName> := [AvgPrice7d, Volatility7d, PriceTrend7d, AvgVolume7d]

  predicate IsPriceFeature(f: FeatureName)
  {
    f in PriceFeatureNames
  }

  /** `[f for f in feature_cols if f not in price_features]`. */
  function NewsFeatureNames(): seq<FeatureName>
  {
    Filter(FeatureCols, f => !IsPriceFeature(f))
  }

  /** The news group is sentiment_change and price_sentiment_alignment, and
      every classifier column is in exactly one of the two groups. */
  lemma FeatureGroupsPartition()
    ensures NewsFeatureNames() == [SentimentChange, PriceSentimentAlignment]
    ensures forall f :: f in FeatureCols ==> (f in PriceFeatureNames <==> f !in NewsFeatureNames())
    ensures forall f :: f in PriceFeatureNames ==> f in FeatureCols
  {
    var keep := (f: FeatureName) => !IsPriceFeature(f);
    assert FeatureCols == [PriceTrend7d, Volatility7d, AvgVolume7d, AvgPrice7d] + [SentimentChange, PriceSentimentAlignment];
    FilterNone([PriceTrend7d, Volatility7d, AvgVolume7d, AvgPrice7d], keep);
    FilterAll([SentimentChange, PriceSentimentAlignment], keep);
    FilterAppend([PriceTrend7d, Volatility7d, AvgVolume7d, AvgPrice7d], [SentimentChange, PriceSentimentAlignment], keep);
  }

  /** Sum of the importances whose column satisfies `inGroup`
      (`feature_importance[...isin(group)]['importance'].sum()`). */
  function GroupImportance(cols: seq<FeatureName>, importance: seq<real>, inGroup: FeatureName -> bool): real
    requires |importance| == |cols|
  {
    if cols == [] then 0.0
    else (if inGroup(cols[0]) then importance[0] else 0.0)
         + GroupImportance(cols[1..], importance[1..], inGroup)
  }

  /** Two groups that split a column list (each column in exactly one):
      their totals add up to the total importance. */
  lemma {:induction false} GroupImportanceSplit(cols: seq<FeatureName>, importance: seq<real>,
                                               inFirst: FeatureName -> bool, inSecond: FeatureName -> bool)
    requires |importance| == |cols|
    requires forall f :: f in cols ==> inSecond(f) == !inFirst(f)
    ensures GroupImportance(cols, importance, inFirst)
          + GroupImportance(cols, importance, inSecond) == Sum(importance)
  {
    if cols != [] {
      GroupImportanceSplit(cols[1..], importance[1..], inFirst, inSecond);
    }
  }

  predicate IsNewsFeature(f: FeatureName)
  {
    f in NewsFeatureNames()
  }

  /** Price and news importances together account for all of the
      classifier's importance. */
  lemma PriceAndNewsImportanceCoverAll(importance: seq<real>)
    requires |importance| == |FeatureCols|
    ensures GroupImportance(FeatureCols, importance, IsPriceFeature)
          + GroupImportance(FeatureCols, importance, IsNewsFeature) == Sum(importance)
  {
    FeatureGroupsPartition();
    GroupImportanceSplit(FeatureCols, importance, IsPriceFeature, IsNewsFeature);
  }

  // ---------------------------------------------------------------------
  // Sorting by date

  predicate SortedByDate(rows: seq<TrainingRow>)
  {
    forall a, b :: 0 <= a < b < |rows| ==> rows[a].date <= rows[b].date
  }

  /** Insert `r` into a date-sorted list, after every row not later than it. */
  function InsertByDate(r: TrainingRow, sorted: seq<TrainingRow>): (s: seq<TrainingRow>)
    ensures |s| == |sorted| + 1
  {
    if sorted == [] then [r]
    else if r.date < sorted[0].date then [r] + sorted
    else [sorted[0]] + InsertByDate(r, sorted[1..])
  }

  /** Inserting a row no earlier than d into rows no earlier than d gives
      rows no earlier than d. */
  lemma {:induction false} InsertByDateLowerBound(r: TrainingRow, sorted: seq<TrainingRow>, d: int)
    requires d <= r.date
    requires forall j :: 0 <= j < |sorted| ==> d <= sorted[j].date
    ensures forall j :: 0 <= j < |InsertByDate(r, sorted)| ==> d <= InsertByDate(r, sorted)[j].date
  {
    if sorted != [] && r.date >= sorted[0].date {
      InsertByDateLowerBound(r, sorted[1..], d);
    }
  }

  /** Insertion keeps a date-sorted list sorted. */
  lemma {:induction false} InsertByDateSorted(r: TrainingRow, sorted: seq<TrainingRow>)
    requires SortedByDate(sorted)
    ensures SortedByDate(InsertByDate(r, sorted))
  {
    if sorted != [] && r.date >= sorted[0].date {
      var head, tail := sorted[0], sorted[1..];
      var rest := InsertByDate(r, tail);
      InsertByDateSorted(r, tail);
      InsertByDateLowerBound(r, tail, head.date);
      var s := InsertByDate(r, sorted);
      assert s == [head] + rest;
      forall a, b | 0 <= a < b < |s|
        ensures s[a].date <= s[b].date
      {
        assert s[b] == rest[b - 1];
        if a > 0 {
          assert s[a] == rest[a - 1];
        }
      }
    }
  }

  /** Insertion adds exactly the inserted row. */
  lemma {:induction false} InsertByDatePermutes(r: TrainingRow, sorted: seq<TrainingRow>)
    ensures multiset(InsertByDate(r, sorted)) == multiset(sorted) + multiset{r}
  {
    if sorted != [] && r.date >= sorted[0].date {
      assert sorted == [sorted[0]] + sorted[1..];
      InsertByDatePermutes(r, sorted[1..]);
    }
  }

  /** `df.sort_values('date')`: insertion sort by date. Only the date order
      and the permutation are promised: pandas' default sort is not stable,
      so the order among rows of one date is not part of the model. */
  function SortByDate(rows: seq<TrainingRow>): (s: seq<TrainingRow>)
    ensures |s| == |rows|
  {
    if rows == [] then [] else InsertByDate(rows[0], SortByDate(rows[1..]))
  }

  /** The sort yields a date-ordered permutation of its input. */
  lemma {:induction false} SortByDateSpec(rows: seq<TrainingRow>)
    ensures SortedByDate(SortByDate(rows))
    ensures multiset(SortByDate(rows)) == multiset(rows)
  {
    if rows != [] {
      SortByDateSpec(rows[1..]);
      InsertByDateSorted(rows[0], SortByDate(rows[1..]));
      InsertByDatePermutes(rows[0], SortByDate(rows[1..]));
      assert rows == [rows[0]] + rows[1..];
    }
  }

  // ---------------------------------------------------------------------
  // The 80/20 split

  /** `int(n * 0.8)`: the floor of 0.8 n. */
  function SplitIndex(n: nat): (k: nat)
    ensures k <= n
    ensures (k as real) <= (n as real) * 0.8 < (k as real) + 1.0
  {
    n * 8 / 10
  }

  datatype Split = Split(train: seq<TrainingRow>, test: seq<TrainingRow>)

  /** Sort by date, first `int(0.8 n)` rows train, the rest test. */
  function TemporalSplit(rows: seq<TrainingRow>): Split
  {
    var sorted := SortByDate(rows);
    var k := SplitIndex(|sorted|);
    Split(sorted[..k], sorted[k..])
  }

  /** The split partitions the dataset, train has `int(0.8 n)` rows, and no
      train row is dated after any test row. */
  lemma TemporalSplitIsCausal(rows: seq<TrainingRow>)
    ensures var s := TemporalSplit(rows);
            |s.train| == SplitIndex(|rows|)
            && multiset(s.train) + multiset(s.test) == multiset(rows)
            && (forall a, b :: a in s.train && b in s.test ==> a.date <= b.date)
  {
    var sorted := SortByDate(rows);
    var k := SplitIndex(|sorted|);
    SortByDateSpec(rows);
    assert sorted == sorted[..k] + sorted[k..];
    SortedCutIsCausal(sorted, k);
  }

  /** Cutting a date-sorted list leaves no row of the first part dated after
      a row of the second. */
  lemma SortedCutIsCausal(sorted: seq<TrainingRow>, k: nat)
    requires SortedByDate(sorted) && k <= |sorted|
    ensures forall a, b :: a in sorted[..k] && b in sorted[k..] ==> a.date <= b.date
  {
    forall a, b | a in sorted[..k] && b in sorted[k..]
      ensures a.date <= b.date
    {
      var i :| 0 <= i < k && sorted[..k][i] == a;
      var j :| 0 <= j < |sorted| - k && sorted[k..][j] == b;
      assert sorted[i] == a && sorted[k + j] == b;
    }
  }
}

=== FILE: views.dfy ===
/** The aggregation behind the two list endpoints: `get_all_direction_predictions`
    groups today's direction predictions into bullish and bearish lists with
    summary statistics, and the legacy `get_all_predictions` maps each price
    prediction to a direction, a displayed confidence and a two-level signal. */
module Views {
  import opened Common
  import opened PriceWindow
  import opened Models
  import opened Prediction

  // ---------------------------------------------------------------------
  // Direction predictions

  /** One of today's DirectionPrediction rows with its coin symbol. */
  datatype Row = Row(coin: string, p: DirectionPrediction)

  predicate IsBullish(r: Row)
  {
    r.p.direction == Up
  }

  predicate IsBearish(r: Row)
  {
    r.p.direction != Up
  }

  /** The query's order, `order_by('-confidence_score')`. */
  predicate ConfidenceNotBelow(a: Row, b: Row)
  {
    a.p.confidence >= b.p.confidence
  }

  function Confidences(rows: seq<Row>): (cs: seq<real>)
    ensures |cs| == |rows|
    ensures forall i :: 0 <= i < |rows| ==> cs[i] == rows[i].p.confidence
  {
    seq(|rows|, i requires 0 <= i < |rows| => rows[i].p.confidence)
  }

  /** `sum(1 for p in predictions if p.signal_strength == 'strong')`. */
  function StrongCount(rows: seq<Row>): (n: nat)
    ensures n <= |rows|
  {
    if rows == [] then 0
    else (if SignalStrengthOf(rows[0].p.confidence) == Strong then 1 else 0) + StrongCount(rows[1..])
  }

  /** `sum(confidences) / total if total > 0 else 0`. */
  function AverageConfidence(rows: seq<Row>): real
  {
    if |rows| > 0 then Sum(Confidences(rows)) / (|rows| as real) else 0.0
  }

  datatype DirectionSummary = DirectionSummary(
    total: nat,
    bullish: seq<Row>,
    bearish: seq<Row>,
    strongSignals: nat,
    averageConfidence: real,
    marketSentiment: string)

  /** The endpoint's loop: each row goes to the bullish list when its
      direction is UP and to the bearish list otherwise, in query order. */
  method GroupByDirection(rows: seq<Row>) returns (bullish: seq<Row>, bearish: seq<Row>)
    ensures bullish == Filter(rows, IsBullish) && bearish == Filter(rows, IsBearish)
  {
    bullish, bearish := [], [];
    var i := 0;
    while i < |rows|
      invariant 0 <= i <= |rows|
      invariant bullish == Filter(rows[..i], IsBullish)
      invariant bearish == Filter(rows[..i], IsBearish)
    {
      var r := rows[i];
      assert rows[..i + 1] == rows[..i] + [r];
      FilterSnoc(rows[..i], r, IsBullish);
      FilterSnoc(rows[..i], r, IsBearish);
      if r.p.direction == Up {
        bullish := bullish + [r];
      } else {
        bearish := bearish + [r];
      }
      i := i + 1;
    }
    assert rows[..i] == rows;
  }

  /** The endpoint's grouping and statistics: each row goes to exactly one
      of the two lists, in query order; the sentiment is 'bullish' only when
      bullish rows strictly outnumber bearish ones. */
  method GetAllDirectionPredictions(rows: seq<Row>) returns (s: DirectionSummary)
    ensures s.bullish == Filter(rows, IsBullish) && s.bearish == Filter(rows, IsBearish)
    ensures s.total == |rows| == |s.bullish| + |s.bearish|
    ensures multiset(s.bullish) + multiset(s.bearish) == multiset(rows)
    ensures s.strongSignals == StrongCount(rows) <= s.total
    ensures s.averageConfidence == AverageConfidence(rows)
    ensures s.marketSentiment == "bullish" <==> |s.bullish| > |s.bearish|
    ensures s.marketSentiment == "bullish" || s.marketSentiment == "bearish"
  {
    var bullish, bearish := GroupByDirection(rows);
    FilterPartition(rows, IsBullish, IsBearish);
    var sentiment := if |bullish| > |bearish| then "bullish" else "bearish";
    s := DirectionSummary(|rows|, bullish, bearish, StrongCount(rows), AverageConfidence(rows), sentiment);
  }

  /** Rows arriving in descending confidence stay in descending confidence
      within each list. */
  lemma GroupsKeepConfidenceOrder(rows: seq<Row>)
    requires OrderedBy(rows, ConfidenceNotBelow)
    ensures OrderedBy(Filter(rows, IsBullish), ConfidenceNotBelow)
    ensures OrderedBy(Filter(rows, IsBearish), ConfidenceNotBelow)
  {
    FilterKeepsOrder(rows, IsBullish, ConfidenceNotBelow);
    FilterKeepsOrder(rows, IsBearish, ConfidenceNotBelow);
  }

  /** The average confidence is the mean of the confidences, so for a
      non-empty list it stays within any bounds they share; for no rows it is
      0, which only bounds around 0 contain. */
  lemma AverageConfidenceBounded(rows: seq<Row>, lo: real, hi: real)
    requires |rows| > 0 || lo <= 0.0 <= hi
    requires forall r :: r in rows ==> lo <= r.p.confidence <= hi
    ensures lo <= AverageConfidence(rows) <= hi
  {
    if |rows| > 0 {
      var cs := Confidences(rows);
      forall i | 0 <= i < |cs|
        ensures lo <= cs[i] <= hi
      {
        assert rows[i] in rows;
      }
      MeanWithinBounds(cs, lo, hi);
    }
  }

  /** A strong signal needs confidence at least 0.7: with confidences in
      [0, 1] the number of strong signals is at most the summed confidence
      divided by 0.7. */
  lemma {:induction false} StrongSignalsBoundedByConfidence(rows: seq<Row>)
    requires forall r :: r in rows ==> 0.0 <= r.p.confidence
    ensures (StrongCount(rows) as real) * 0.7 <= Sum(Confidences(rows))
  {
    if rows != [] {
      assert forall r :: r in rows[1..] ==> r in rows;
      StrongSignalsBoundedByConfidence(rows[1..]);
      assert Confidences(rows) == [rows[0].p.confidence] + Confidences(rows[1..]);
      assert rows[0] in rows;
    }
  }

  // ---------------------------------------------------------------------
  // The legacy price-prediction list

  /** One legacy PricePrediction row: its predicted percent change and a
      nullable confidence score. */
  datatype PriceRow = PriceRow(coin: string, changePercent: real, confidence: Option<real>)

  /** One entry of the legacy response. */
  datatype LegacyEntry = LegacyEntry(coin: string, direction: Direction, confidence: real, strong: bool)

  /** A missing or zero score is falsy: the display shows 0.5 and the signal
      rule compares 0. */
  function ScoreOrZero(c: Option<real>): (v: real)
    ensures c.None? ==> v == 0.0
    ensures c.Some? ==> v == c.value
  {
    if c.Some? then c.value else 0.0
  }

  function ToLegacyEntry(r: PriceRow): (e: LegacyEntry)
    ensures e.direction == Up <==> r.changePercent > 0.0
    ensures e.confidence == (if ScoreOrZero(r.confidence) != 0.0 then ScoreOrZero(r.confidence) else 0.5)
    ensures e.strong <==> ScoreOrZero(r.confidence) > 0.7
  {
    var score := ScoreOrZero(r.confidence);
    LegacyEntry(
      r.coin,
      if r.changePercent > 0.0 then Up else Down,
      if score != 0.0 then score else 0.5,
      score > 0.7)
  }

  predicate IsUp(e: LegacyEntry)
  {
    e.direction == Up
  }

  predicate IsDown(e: LegacyEntry)
  {
    e.direction == Down
  }

  datatype LegacySummary = LegacySummary(total: nat, bullishCount: nat, bearishCount: nat, entries: seq<LegacyEntry>)

  /** The legacy endpoint's loop: one entry per row in query order, and the
      UP and DOWN counts add up to the total. */
  method GetAllPredictions(rows: seq<PriceRow>) returns (s: LegacySummary)
    ensures |s.entries| == s.total == |rows|
    ensures forall i :: 0 <= i < |rows| ==> s.entries[i] == ToLegacyEntry(rows[i])
    ensures s.bullishCount == |Filter(s.entries, IsUp)| && s.bearishCount == |Filter(s.entries, IsDown)|
    ensures s.bullishCount + s.bearishCount == s.total
  {
    var data: seq<LegacyEntry> := [];
    var i := 0;
    while i < |rows|
      invariant 0 <= i <= |rows|
      invariant |data| == i
      invariant forall k :: 0 <= k < i ==> data[k] == ToLegacyEntry(rows[k])
    {
      data := data + [ToLegacyEntry(rows[i])];
      i := i + 1;
    }
    FilterPartition(data, IsUp, IsDown);
    s := LegacySummary(|data|, |Filter(data, IsUp)|, |Filter(data, IsDown)|, data);
  }

  /** A zero change reads as DOWN, and a missing or zero confidence is shown
      as 0.5 yet signals 'weak'. */
  lemma LegacyEdgeCases(coin: string)
    ensures ToLegacyEntry(PriceRow(coin, 0.0, None)) == LegacyEntry(coin, Down, 0.5, false)
    ensures ToLegacyEntry(PriceRow(coin, 0.0, Some(0.0))) == LegacyEntry(coin, Down, 0.5, false)
  {
  }

  /** The legacy 'strong' (above 0.7) is stricter than the direction
      predictions' 'strong' (0.7 and above): every legacy strong score is
      strong there, and 0.7 itself is strong there but not here. */
  lemma LegacyStrongIsStricter(r: PriceRow)
    ensures ToLegacyEntry(r).strong ==> SignalStrengthOf(r.confidence.value) == Strong
    ensures r.confidence == Some(0.7) ==> !ToLegacyEntry(r).strong && SignalStrengthOf(0.7) == Strong
  {
  }
}
